=== FILE: README.md ===
# Kernelized Instance Normalization: a Dafny model of the layer's index logic

The repository uses a Kernelized Instance Normalization (KIN) layer. It
normalises each tile of a large image with statistics pooled from the tiles
around it. The layer works in three phases:

- **Collection.** With every tile's anchor (its row and column in a grid of
  tiles), the layer caches the tile's mean and standard deviation in a table
  indexed by anchor.
- **Inference.** For each tile, the layer reads the cached statistics in a
  window around the tile's anchor and normalises the tile with a pooled pair.
- **Plain.** Ordinary instance normalisation, which ignores the cache.

This project models the index-level logic of both versions of the layer. The
floating-point tensor arithmetic is abstracted away: the per-sample statistics
are given exact reals (`Samples.SampleStats`), and a forward call reports
*which* statistics the normalisation applies and how the layer's state changes.

- `wrappers.dfy`: `Option` and `Result`.
- `samples.dfy`: the per-sample statistics the numerics would compute.
- `modes.dfy`: the mode dispatch the two versions share (training flag, then
  the `normal_instance_normalization` override, then `collection_mode`). Also a
  host network as a sequence of modules, with the per-layer loop of the three
  mode-switch functions.
- `grids.dfy`: grid helpers with Python/torch semantics.
  - Python slices with end clamping, `zip` truncation and `itertools.product`
    order.
  - A sequential scatter in which the last write to a cell wins.
  - Sums, unweighted means and edge replication.
- `kin.dfy` (module `Kin`): `models/kin.py`. Each cache cell holds one scalar,
  channel 0 of the sample's statistic. `query_neighbors` has two modes:
  - bounds mode gives inclusive clamped bounds;
  - list mode gives an explicit neighbour list.

  Inference takes the unweighted mean of the cached cells in the bounds-mode
  window.
- `lsesim_kin.dfy` (module `LSeSimKin`): `F-LSeSim/models/kin.py`.
  - Each cache cell holds a per-channel vector.
  - `use_kernelized_instance_norm` snapshots the cache into replication-padded
    tables.
  - Inference slices a fixed (2p+1)×(2p+1) window out of the snapshot and
    weights it with the kernel.

Main results:

- In `models/kin.py`, the bounds-mode slice reads exactly the clipped window
  around the anchor. The `min(y_anchor_num, y + padding)` upper bound can name
  a row one past the grid, but the end clamping of the slice absorbs it.
- For padding ≥ 1, that window is exactly the list-mode neighbour list, in the
  same row-major order and without duplicates. So inference averages the
  neighbours, and the stored kernel plays no part.
- In `F-LSeSim/models/kin.py`, for an in-grid anchor the window of the padded
  snapshot is the neighbourhood centred on the anchor, with replicated edges.
  With a kernel of the window's size, inference applies the kernel-weighted sum
  of that neighbourhood of the tables as they were when the snapshot was taken.
  A uniform 1/n² kernel turns this into the plain mean.

The list-mode neighbour list includes the anchor itself: the product over
offsets −p..p does not skip the offset (0, 0).

## Model

| member | source | states |
|---|---|---|
| Kin.NewLayer | models/kin.py:9-16 | the constructed layer has both mode flags clear, no tables and no stored kernel |
| Kin.InitCollection | models/kin.py:27-31 | the tables have exactly the requested rows and columns and every mean and std cell is 0, whatever was cached before |
| Kin.Collection | models/kin.py:36-41 | a cell named by a visited sample holds the channel-0 mean/std of the last visited sample naming it; every other cell is unchanged; zip stops at the shortest of batch and anchors |
| Kin.CollectionLastWriteWins | models/kin.py:39-41 | two samples of one batch at the same anchor leave the second one's statistics in the cell |
| Kin.QueryBounds | models/kin.py:47-52 | for an in-grid anchor and p ≥ 0, 0 ≤ top ≤ y ≤ down ≤ rows and 0 ≤ left ≤ x ≤ right ≤ cols; cut to the grid, the bounds contain exactly the rows and columns within distance p of the anchor; down equals rows iff y + p ≥ rows, and right equals cols iff x + p ≥ cols, one past the last index |
| Kin.QueryNeighbors | models/kin.py:55-56 | list mode with padding 0 returns the empty list |
| Kin.NeighborsAreClippedWindow | models/kin.py:57-66 | for p ≥ 1 the neighbour list equals the row-major enumeration of the clipped (2p+1)×(2p+1) window |
| Kin.NeighborsMembership | models/kin.py:57-66 | a cell is listed iff p ≥ 1, it lies in the grid and it is within Chebyshev distance p of the anchor (the anchor included) |
| Kin.NeighborsRowMajor | models/kin.py:57-66 | the list is strictly increasing in row-major order, hence free of duplicates |
| Kin.NeighborsCount | models/kin.py:57-66 | for p ≥ 1 the list has as many cells as the clipped window's area |
| Kin.SliceIsClippedWindow | models/kin.py:87-89 | the slice table[top:down+1, left:right+1] of an in-grid anchor reads exactly the cells of the clipped window, in row-major order |
| Kin.PooledStats | models/kin.py:87-91 | the pooled pair is the unweighted mean of the mean table and of the std table over the clipped window, which is never empty |
| Kin.PooledOverNeighbors | models/kin.py:87-91 | for p ≥ 1 the pooled pair is the mean over the list-mode neighbours |
| Kin.PooledWithoutPadding | models/kin.py:87-91 | with padding 0 the pooled pair is the anchor's own cached cell |
| Kin.InferenceExample | models/kin.py:87-91 | on a 1×2 grid, anchor (0, 0) with padding 1 averages both cells, so means 1 and 3 give 2 |
| Kin.Forward | models/kin.py:73-96 | training or the override: plain normalisation and no state change; otherwise missing anchors fail. Collection succeeds iff every visited anchor is in the grid, and without tables iff no sample is visited, since only the loop body reads them; it then applies per-sample statistics and changes only the tables. Inference succeeds iff the batch has one sample, the anchor is a single in-grid cell and the tables exist, and then applies the pooled pair without changing the layer |
| Kin.KernelUnused | models/kin.py:90-91 | whether forward succeeds, and what it applies, does not depend on the stored kernel |
| Kin.CollectSucceeds | models/kin.py:82-83 | on a consistent collecting layer, a collecting forward with in-grid anchors succeeds and keeps the layer consistent |
| Kin.CollectThenInfer | models/kin.py:73-116 | initialise, collect a batch at in-grid anchors, switch to inference: the collect succeeds, the layer keeps the collected tables, and inference at an in-grid anchor succeeds and applies their pooled pair around the anchor |
| Kin.NewLayerNeedsInit | models/kin.py:82-88 | a freshly constructed layer cannot run an anchored forward in evaluation mode: its tables do not exist yet |
| Kin.NotUseKernelized | models/kin.py:98-102 | every layer selects plain normalisation and keeps its tables and kernel; other modules are untouched |
| Kin.InitKernelized | models/kin.py:104-110 | every layer collects into fresh zero tables of the given size and stores the kernel; other modules are untouched |
| Kin.UseKernelized | models/kin.py:112-116 | every layer selects kernelized inference and keeps its tables and kernel; other modules are untouched |
| Kin.TransitionsIdempotent | models/kin.py:98-116 | applying any of the three mode switches twice is the same as applying it once |
| Kin.TransitionsKeepConsistent | models/kin.py:98-116 | the constructor and all three switches keep every layer consistent: never both flags set, and collecting only with tables present |
| LSeSimKin.New | F-LSeSim/models/kin.py:31-56 | the constructor fails with the odd-size error iff kernel_size is even; otherwise the layer keeps its configuration, has both flags clear and no tables |
| LSeSimKin.InitCollection | F-LSeSim/models/kin.py:66-79 | the tables have the requested rows and columns, and every cell is a zero vector of num_features channels |
| LSeSimKin.Collection | F-LSeSim/models/kin.py:108-115 | a cell named by an anchor takes the whole mean and std vectors of the last sample naming it; every other cell is unchanged |
| LSeSimKin.CollectDistinct | F-LSeSim/models/kin.py:114-115 | with distinct anchors, every sample's vectors land in its own anchor's cell |
| LSeSimKin.PadPlane | F-LSeSim/models/kin.py:85-91 | replication padding by p gives an (H+2p)×(W+2p) plane whose cell (i, j) is the plane's cell (clamp(i−p), clamp(j−p)) |
| LSeSimKin.PadTable | F-LSeSim/models/kin.py:81-91 | pad_table fails iff the table has an empty dimension; otherwise every channel of both tables is replication-padded by p and the table size is recorded |
| LSeSimKin.PadTableCells | F-LSeSim/models/kin.py:81-91 | each padded cell holds the nearest table cell, and the interior is the table shifted by p |
| LSeSimKin.NeighbourhoodCentre | F-LSeSim/models/kin.py:130-139 | the centre of the neighbourhood of an in-grid anchor is the anchor's own cell |
| LSeSimKin.WindowCentred | F-LSeSim/models/kin.py:130-139 | for an in-grid anchor the slice of the padded tables is, in every channel, exactly the (2p+1)×(2p+1) neighbourhood centred on the anchor with replicated edges |
| LSeSimKin.MultiplyKernel | F-LSeSim/models/kin.py:121-124 | multiply_kernel fails iff the window and kernel shapes do not broadcast; otherwise it gives one value per channel |
| LSeSimKin.MultiplyKernelWellShaped | F-LSeSim/models/kin.py:121-124 | with a kernel of the window's size, each channel's value is the sum of kernel[i][j] · window[i][j] |
| LSeSimKin.SingleCellKernelScalesWindow | F-LSeSim/models/kin.py:121-124 | a 1×1 kernel broadcasts over any window and scales each channel's window sum by its one value |
| LSeSimKin.UniformKernelIsMean | F-LSeSim/models/kin.py:121-124 | a kernel of the window's size with every weight 1/n² gives the unweighted mean of the window |
| LSeSimKin.TotalIsFlatSum | F-LSeSim/models/kin.py:123 | summing a grid over both dimensions, row by row, is summing its cells laid end to end |
| LSeSimKin.Forward | F-LSeSim/models/kin.py:99-144 | training or the override: plain normalisation without weight and bias, whatever the channel count; otherwise missing anchors fail. Collection succeeds iff the tables exist and there is one in-grid anchor pair per sample, and then applies per-sample statistics with the affine step and changes only the tables. Inference succeeds iff the batch has one sample, the anchor is a single in-grid cell, the snapshot exists and the kernel broadcasts with the (2p+1)-wide window; it then applies a pooled pair and leaves the layer unchanged. The padded snapshot never changes |
| LSeSimKin.CollectSucceeds | F-LSeSim/models/kin.py:108-117 | a collecting layer with tables, given one in-grid anchor pair per sample, succeeds: it writes the batch into the tables and applies per-sample statistics with the affine step |
| LSeSimKin.Infer | F-LSeSim/models/kin.py:128-141 | the inference branch fails iff the kernel does not broadcast with the (2p+1)-wide window; otherwise one mean and one std per channel |
| LSeSimKin.InferenceReadsNeighbourhood | F-LSeSim/models/kin.py:128-141 | once the snapshot of tables t is taken, inference at an in-grid anchor with a (2p+1)×(2p+1) kernel succeeds and applies, per channel, the kernel-weighted sum of t's neighbourhood centred on the anchor |
| LSeSimKin.CollectThenInfer | F-LSeSim/models/kin.py:99-171 | initialise, collect a batch at in-grid anchors, snapshot, infer at an in-grid anchor with a (2p+1)×(2p+1) kernel: every step succeeds, and inference applies, per channel, the kernel-weighted neighbourhood of the collected tables centred on the anchor |
| LSeSimKin.NotUseKernelized | F-LSeSim/models/kin.py:147-151 | every layer selects plain normalisation and keeps its tables, its snapshot and its configuration (channels, kernel size, padding, kernel); other modules are untouched |
| LSeSimKin.InitKernelized | F-LSeSim/models/kin.py:154-163 | every layer collects into fresh zero tables of its channel count; the padded snapshot and the configuration are left as they were; other modules are untouched |
| LSeSimKin.UseLayer | F-LSeSim/models/kin.py:166-171 | a layer without tables, or whose tables cannot be padded, fails; otherwise the snapshot is the padded tables and the layer selects kernelized inference |
| LSeSimKin.UseKernelized | F-LSeSim/models/kin.py:166-171 | the switch succeeds iff every layer's snapshot succeeds, and keeps the network's length |
| LSeSimKin.UseKernelizedLayers | F-LSeSim/models/kin.py:166-171 | on success every layer is replaced by its snapshotted self and every other module is untouched |
| LSeSimKin.TransitionsIdempotent | F-LSeSim/models/kin.py:147-171 | applying any of the three switches twice is the same as applying it once, and a successful switch to inference keeps the layers valid |
| LSeSimKin.SnapshotIsStale | F-LSeSim/models/kin.py:154-171 | after the switch to inference, re-initialising and collecting again leave the snapshot as the tables were when it was taken |

## Left out

- The tensor numerics are not modelled: `calc_mean_std`, `torch.var_mean`, `eps`, `sqrt`, and the `(x − mean) / std · weight + bias` step. Forward reports which statistics are applied, and whether the affine step follows, instead of computing the output tensor.
- `affine=False` is not modelled. In `models/kin.py` every forward path then fails on the missing `weight`, plain normalisation included. In `F-LSeSim/models/kin.py` only the collect and inference paths do, because `forward_normal` applies neither weight nor bias.
- `get_kernel` (in `utils/util.py`) is not part of this model. The kernel is a parameter of `LSeSimKin.New`. Its 'gaussian' or 'constant' contents are not modelled.
- `init_kernel` and the stored kernel of `models/kin.py` are modelled only as a value that `init_kernelized_instance_norm` stores. Forward never reads it (`Kin.KernelUnused`).
- Device placement, `nn.Parameter` and `named_modules` traversal are not modelled. The host network is a sequence of modules, each a normalisation layer or something else.
- The `__main__` demo, the datasets and loaders, and `print` are not modelled.
- Kin.Forward: an anchor outside the grid is the error `AnchorOutOfRange`. In Python, a collection write past the table raises IndexError. A negative one counts from the end of the table down to −rows or −cols, and raises IndexError below that. At inference the clamps still form a slice. An anchor at most p rows or columns outside the grid reads the in-grid part of its window. One further past the last row or column reads an empty slice, whose mean is NaN. One further before the first row or column ends the slice at 0, which is empty, or below 0, which counts back from the end of the table.
- Kin.Forward: when a later sample's anchor is out of range, the Python loop has already written the earlier samples before it raises. The model's error carries no layer, so that partial update of the tables is not modelled.
- Kin.Forward: the weight has `out_channels` channels, and the model does not track the channel count. In Python, on every path, combining the batch with the weight raises unless the two channel counts agree or either of them is 1.
- Kin.Forward: anchors are sequences on both paths. In Python, collection zips over its anchors, so a scalar anchor (an int or a 0-d tensor) raises TypeError there. The model does not model that failure.
- Kin.NewLayer: the constructor always yields a layer. In Python, `affine=True` with the default `out_channels=None` makes `torch.ones(size=(1, None, 1, 1))` raise TypeError, so `KernelizedInstanceNorm()` with its defaults fails. The weight and bias, and so `out_channels`, are not modelled.
- Kin.Forward: the padding is a natural number. A negative padding reverses the clamps in Python.
- LSeSimKin.Forward: an anchor outside the grid is the error `AnchorOutOfRange`. In torch, a collection write past the table raises IndexError. A negative one counts from the end of the table down to −rows or −cols, and raises IndexError below that. An inference anchor past the last row or column gives a window with fewer than 2p+1 rows or columns, possibly none. `multiply_kernel` then raises, unless that dimension broadcasts with the kernel: one row or column is left, or the kernel's dimension is 1. In that case a value is returned. A negative inference anchor makes the slice start count from the end of the padded table.
- LSeSimKin.Forward: the collecting branch needs exactly one anchor pair per sample (error `AnchorShape`). The broadcasting of index tensors of other shapes is not modelled.
- LSeSimKin.Forward: outside plain normalisation, every sample is required to carry `num_features` channels. With a mismatch, torch raises when the statistics are written into the tables or combined with the weight. The exception is a single channel, which broadcasts. That broadcast case is not modelled. Plain normalisation places no demand on the channel count.
- LSeSimKin.New: the padding is a natural number. Python passes a negative padding on to `ReplicationPad2d` and the slice ends unchecked, and what torch then does is not modelled.
- LSeSimKin.Collection: several samples of one batch with the same anchor leave the last one's statistics, as the sequential loop of `models/kin.py` does. Torch does not specify which write wins in an index assignment with duplicates. `LSeSimKin.CollectDistinct` states the unambiguous case.
- LSeSimKin.PadTable: a table with an empty dimension, or with no channels, is the error `EmptyTable`. This assumes torch's replication padding rejects such input.
- LSeSimKin.UseKernelized: when one layer cannot be snapshotted, the model fails as a whole. In Python, the layers before it have already been switched by then.
- LSeSimKin.New: the kernel is not checked against the padding. A `kernel_size` other than `2·padding + 1` is accepted. It fails only at inference (`LSeSimKin.Infer`), and not even there when the window or the kernel is 1×1, which is padding 0 or `kernel_size` 1: then the two broadcast.

=== FILE: grids.dfy ===
/**
 * Two-dimensional tables and the indexing conventions (Python slices,
 * itertools.product order, sequential index assignment, edge replication)
 * that both layer models are built from.
 */
module Grids {
  import opened Wrappers

  /** A table stored row by row: g[row][column]. */
  type Grid<T> = seq<seq<T>>

  /** g has exactly h rows of exactly w cells each. */
  predicate IsShape<T>(g: Grid<T>, h: nat, w: nat) {
    |g| == h && forall i :: 0 <= i < h ==> |g[i]| == w
  }

  /** Cell c = (row, column) lies inside an h by w grid. */
  predicate InGrid(h: int, w: int, c: (int, int)) {
    0 <= c.0 < h && 0 <= c.1 < w
  }

  /** v is within distance p of centre along one axis. */
  predicate Near(v: int, centre: int, p: int) {
    centre - p <= v <= centre + p
  }

  function Min(a: int, b: int): int {
    if a <= b then a else b
  }

  function Max(a: int, b: int): int {
    if a >= b then a else b
  }

  /** i pushed into [lo, hi]. */
  function Clamp(i: int, lo: int, hi: int): (r: int)
    requires lo <= hi
    ensures lo <= r <= hi
    ensures lo <= i <= hi ==> r == i
    ensures i < lo ==> r == lo
    ensures hi < i ==> r == hi
  {
    Max(lo, Min(i, hi))
  }

  /** An h by w grid holding v everywhere. */
  function Fill<T>(h: nat, w: nat, v: T): (g: Grid<T>)
    ensures IsShape(g, h, w)
    ensures forall i, j :: 0 <= i < h && 0 <= j < w ==> g[i][j] == v
  {
    seq(h, _ => seq(w, _ => v))
  }

  // ---------------------------------------------------------------------------
  // Sequential writes into a grid
  // ---------------------------------------------------------------------------

  /** The number of tuples Python's zip yields from three sequences of these lengths. */
  function ZipLength(a: nat, b: nat, c: nat): (n: nat)
    ensures n <= a && n <= b && n <= c
    ensures n == a || n == b || n == c
  {
    Min(a, Min(b, c))
  }

  /** All of the first n anchors (ys[b], xs[b]) address a cell of an h by w grid. */
  predicate AnchorsIn(h: int, w: int, ys: seq<int>, xs: seq<int>, n: nat)
    requires n <= |ys| && n <= |xs|
  {
    forall b :: 0 <= b < n ==> 0 <= ys[b] < h && 0 <= xs[b] < w
  }

  /** No two of the first n anchors address the same cell. */
  predicate DistinctAnchors(ys: seq<int>, xs: seq<int>, n: nat)
    requires n <= |ys| && n <= |xs|
  {
    forall b, b' :: 0 <= b < b' < n ==> ys[b] != ys[b'] || xs[b] != xs[b']
  }

  /** The last of the first n anchors that addresses cell (y, x), if any. */
  function LastHit(ys: seq<int>, xs: seq<int>, n: nat, y: int, x: int): (r: Option<nat>)
    requires n <= |ys| && n <= |xs|
    ensures r.Some? ==> r.value < n && ys[r.value] == y && xs[r.value] == x
    ensures r.Some? ==> forall b :: r.value < b < n ==> ys[b] != y || xs[b] != x
    ensures r.None? ==> forall b :: 0 <= b < n ==> ys[b] != y || xs[b] != x
    decreases n
  {
    if n == 0 then None
    else if ys[n - 1] == y && xs[n - 1] == x then Some(n - 1)
    else LastHit(ys, xs, n - 1, y, x)
  }

  /**
   * Writes vs[b] into cell (ys[b], xs[b]) for b = 0, 1, ..., n-1 in turn, as a
   * loop of single-cell assignments does: the last write to a cell wins.
   */
  function Scatter<T>(g: Grid<T>, h: nat, w: nat, ys: seq<int>, xs: seq<int>, vs: seq<T>, n: nat): (g': Grid<T>)
    requires IsShape(g, h, w)
    requires n <= |ys| && n <= |xs| && n <= |vs|
    requires AnchorsIn(h, w, ys, xs, n)
    ensures IsShape(g', h, w)
    ensures forall y, x :: 0 <= y < h && 0 <= x < w && LastHit(ys, xs, n, y, x).None? ==>
      g'[y][x] == g[y][x]
    ensures forall y, x :: 0 <= y < h && 0 <= x < w && LastHit(ys, xs, n, y, x).Some? ==>
      g'[y][x] == vs[LastHit(ys, xs, n, y, x).value]
    decreases n
  {
    if n == 0 then g
    else
      var prev := Scatter(g, h, w, ys, xs, vs, n - 1);
      prev[ys[n - 1] := prev[ys[n - 1]][xs[n - 1] := vs[n - 1]]]
  }

  /** With pairwise distinct anchors, the last write to anchor b's cell is b's own. */
  lemma LastHitDistinct(ys: seq<int>, xs: seq<int>, n: nat, b: nat)
    requires n <= |ys| && n <= |xs| && DistinctAnchors(ys, xs, n) && b < n
    ensures LastHit(ys, xs, n, ys[b], xs[b]) == Some(b)
  {
    var hit := LastHit(ys, xs, n, ys[b], xs[b]);
    assert hit.Some?;
  }

  // ---------------------------------------------------------------------------
  // Index ranges and row-major enumeration
  // ---------------------------------------------------------------------------

  /** The integers lo, lo+1, ..., hi-1 (empty when hi <= lo), like numpy.arange(lo, hi). */
  function Range(lo: int, hi: int): (r: seq<int>)
    ensures |r| == Max(0, hi - lo)
    ensures forall k :: 0 <= k < |r| ==> r[k] == lo + k
    decreases hi - lo
  {
    if lo >= hi then [] else [lo] + Range(lo + 1, hi)
  }

  lemma RangeMembership(lo: int, hi: int, v: int)
    ensures v in Range(lo, hi) <==> lo <= v < hi
  {
    if lo <= v < hi {
      assert Range(lo, hi)[v - lo] == v;
    }
  }

  /** The cells (r, cs[0]), (r, cs[1]), ... of one row. */
  function RowCells(r: int, cs: seq<int>): (cells: seq<(int, int)>)
    ensures |cells| == |cs|
    ensures forall k :: 0 <= k < |cs| ==> cells[k] == (r, cs[k])
  {
    seq(|cs|, k requires 0 <= k < |cs| => (r, cs[k]))
  }

  /** rs × cs in row-major order: the order in which itertools.product yields pairs. */
  function Product(rs: seq<int>, cs: seq<int>): seq<(int, int)> {
    if rs == [] then [] else RowCells(rs[0], cs) + Product(rs[1..], cs)
  }

  lemma {:induction false} ProductLength(rs: seq<int>, cs: seq<int>)
    ensures |Product(rs, cs)| == |rs| * |cs|
  {
    if rs != [] {
      ProductLength(rs[1..], cs);
      assert |rs| * |cs| == |cs| + |rs[1..]| * |cs|;
    }
  }

  lemma {:induction false} ProductMembership(rs: seq<int>, cs: seq<int>, c: (int, int))
    ensures c in Product(rs, cs) <==> c.0 in rs && c.1 in cs
  {
    if rs != [] {
      ProductMembership(rs[1..], cs, c);
      var head := RowCells(rs[0], cs);
      assert Product(rs, cs) == head + Product(rs[1..], cs);
      if c.0 == rs[0] && c.1 in cs {
        var k :| 0 <= k < |cs| && cs[k] == c.1;
        assert head[k] == c;
      }
      if c.0 in rs {
        var i :| 0 <= i < |rs| && rs[i] == c.0;
        if i > 0 {
          assert rs[1..][i - 1] == c.0;
        }
      }
    }
  }

  /** Strict lexicographic (row, then column) order of cells. */
  predicate Before(a: (int, int), b: (int, int)) {
    a.0 < b.0 || (a.0 == b.0 && a.1 < b.1)
  }

  /** The cells are listed in strictly increasing row-major order. */
  predicate RowMajor(cells: seq<(int, int)>) {
    forall i, j :: 0 <= i < j < |cells| ==> Before(cells[i], cells[j])
  }

  predicate Increasing(s: seq<int>) {
    forall i, j :: 0 <= i < j < |s| ==> s[i] < s[j]
  }

  /** No cell is listed twice. */
  predicate NoDuplicates(cells: seq<(int, int)>) {
    forall i, j :: 0 <= i < j < |cells| ==> cells[i] != cells[j]
  }

  lemma RowMajorHasNoDuplicates(cells: seq<(int, int)>)
    requires RowMajor(cells)
    ensures NoDuplicates(cells)
  {
    forall i, j | 0 <= i < j < |cells| ensures cells[i] != cells[j] {
      assert Before(cells[i], cells[j]);
    }
  }

  lemma {:induction false} ProductRowMajor(rs: seq<int>, cs: seq<int>)
    requires Increasing(rs) && Increasing(cs)
    ensures RowMajor(Product(rs, cs))
  {
    if rs != [] {
      var head := RowCells(rs[0], cs);
      var tail := Product(rs[1..], cs);
      ProductRowMajor(rs[1..], cs);
      assert Product(rs, cs) == head + tail;
      forall j | 0 <= j < |tail| ensures rs[0] < tail[j].0 {
        ProductMembership(rs[1..], cs, tail[j]);
        var i :| 0 <= i < |rs[1..]| && rs[1..][i] == tail[j].0;
        assert rs[i + 1] == tail[j].0;
      }
      var all := head + tail;
      forall i, j | 0 <= i < j < |all| ensures Before(all[i], all[j]) {
        if j < |head| {
          assert all[i] == (rs[0], cs[i]) && all[j] == (rs[0], cs[j]);
        } else if i < |head| {
          assert all[j] == tail[j - |head|];
        } else {
          assert all[i] == tail[i - |head|] && all[j] == tail[j - |head|];
        }
      }
    }
  }

  // ---------------------------------------------------------------------------
  // Reading cells and Python slices
  // ---------------------------------------------------------------------------

  /** Every listed cell can be read from g. */
  predicate CellsIn<T>(g: Grid<T>, cells: seq<(int, int)>) {
    forall k :: 0 <= k < |cells| ==> 0 <= cells[k].0 < |g| && 0 <= cells[k].1 < |g[cells[k].0]|
  }

  /** The values of the listed cells, in the order listed. */
  function Gather<T>(g: Grid<T>, cells: seq<(int, int)>): (vs: seq<T>)
    requires CellsIn(g, cells)
    ensures |vs| == |cells|
    ensures forall k :: 0 <= k < |cells| ==> vs[k] == g[cells[k].0][cells[k].1]
  {
    seq(|cells|, k requires 0 <= k < |cells| => g[cells[k].0][cells[k].1])
  }

  /** The rows laid end to end. */
  function Flatten<T>(rows: seq<seq<T>>): seq<T> {
    if rows == [] then [] else rows[0] + Flatten(rows[1..])
  }

  /**
   * Python's s[lo:hi] for non-negative bounds: each bound is cut to |s|,
   * and a slice whose start passes its end is empty.
   */
  function PySlice<T>(s: seq<T>, lo: nat, hi: nat): (r: seq<T>)
    ensures lo <= hi <= |s| ==> r == s[lo..hi]
  {
    var a := if lo < |s| then lo else |s|;
    var b := if hi < |s| then hi else |s|;
    if a <= b then s[a..b] else []
  }

  /** Every row sliced to columns lo:hi. */
  function Crop<T>(rows: seq<seq<T>>, lo: nat, hi: nat): (r: seq<seq<T>>)
    ensures |r| == |rows|
    ensures forall i :: 0 <= i < |rows| ==> r[i] == PySlice(rows[i], lo, hi)
  {
    seq(|rows|, i requires 0 <= i < |rows| => PySlice(rows[i], lo, hi))
  }

  lemma ProductInGrid<T>(g: Grid<T>, h: nat, w: nat, a: nat, b: nat, c: nat, e: nat)
    requires IsShape(g, h, w) && a <= b <= h && c <= e <= w
    ensures CellsIn(g, Product(Range(a, b), Range(c, e)))
  {
    var cells := Product(Range(a, b), Range(c, e));
    forall k | 0 <= k < |cells| ensures 0 <= cells[k].0 < |g| && 0 <= cells[k].1 < |g[cells[k].0]| {
      ProductMembership(Range(a, b), Range(c, e), cells[k]);
      RangeMembership(a, b, cells[k].0);
      RangeMembership(c, e, cells[k].1);
    }
  }

  lemma GatherAppend<T>(g: Grid<T>, p: seq<(int, int)>, q: seq<(int, int)>)
    requires CellsIn(g, p) && CellsIn(g, q)
    ensures CellsIn(g, p + q)
    ensures Gather(g, p + q) == Gather(g, p) + Gather(g, q)
  {
    assert forall k :: 0 <= k < |p + q| ==> (p + q)[k] == if k < |p| then p[k] else q[k - |p|];
  }

  lemma GatherRow<T>(g: Grid<T>, h: nat, w: nat, a: nat, c: nat, e: nat)
    requires IsShape(g, h, w) && a < h && c <= e <= w
    ensures CellsIn(g, RowCells(a, Range(c, e)))
    ensures Gather(g, RowCells(a, Range(c, e))) == g[a][c..e]
  {
  }

  lemma CropStep<T>(g: Grid<T>, h: nat, w: nat, a: nat, b: nat, c: nat, e: nat)
    requires IsShape(g, h, w) && a < b <= h && c <= e <= w
    ensures Flatten(Crop(g[a..b], c, e)) == g[a][c..e] + Flatten(Crop(g[a + 1..b], c, e))
  {
    var rows := Crop(g[a..b], c, e);
    assert rows[0] == g[a][c..e];
    assert rows[1..] == Crop(g[a + 1..b], c, e);
  }

  lemma ProductStep(a: int, b: int, cs: seq<int>)
    requires a < b
    ensures Product(Range(a, b), cs) == RowCells(a, cs) + Product(Range(a + 1, b), cs)
  {
    assert Range(a, b)[1..] == Range(a + 1, b);
  }

  /**
   * Cropping rows a..b-1 of g to columns c..e-1 and laying them end to end
   * reads the cells of Range(a, b) × Range(c, e) in row-major order.
   */
  lemma {:induction false} CropIsGather<T>(g: Grid<T>, h: nat, w: nat, a: nat, b: nat, c: nat, e: nat)
    requires IsShape(g, h, w) && a <= b <= h && c <= e <= w
    ensures CellsIn(g, Product(Range(a, b), Range(c, e)))
    ensures Flatten(Crop(g[a..b], c, e)) == Gather(g, Product(Range(a, b), Range(c, e)))
    decreases b - a
  {
    ProductInGrid(g, h, w, a, b, c, e);
    if a < b {
      var row, rest := RowCells(a, Range(c, e)), Product(Range(a + 1, b), Range(c, e));
      CropIsGather(g, h, w, a + 1, b, c, e);
      ProductInGrid(g, h, w, a + 1, b, c, e);
      GatherRow(g, h, w, a, c, e);
      ProductStep(a, b, Range(c, e));
      GatherAppend(g, row, rest);
      CropStep(g, h, w, a, b, c, e);
      assert Gather(g, row + rest) == g[a][c..e] + Flatten(Crop(g[a + 1..b], c, e));
    } else {
      assert Crop(g[a..b], c, e) == [];
    }
  }

  // ---------------------------------------------------------------------------
  // Sums and means
  // ---------------------------------------------------------------------------

  function Sum(s: seq<real>): real {
    if s == [] then 0.0 else s[0] + Sum(s[1..])
  }

  /** The unweighted arithmetic mean, as torch's Tensor.mean computes it. */
  function Mean(s: seq<real>): real
    requires |s| > 0
  {
    Sum(s) / (|s| as real)
  }

  lemma {:induction false} SumAppend(a: seq<real>, b: seq<real>)
    ensures Sum(a + b) == Sum(a) + Sum(b)
  {
    if a != [] {
      assert (a + b)[1..] == a[1..] + b;
      SumAppend(a[1..], b);
    } else {
      assert a + b == b;
    }
  }

  // ---------------------------------------------------------------------------
  // Edge replication
  // ---------------------------------------------------------------------------

  function Repeat<T>(v: T, n: nat): (r: seq<T>)
    ensures |r| == n && forall k :: 0 <= k < n ==> r[k] == v
  {
    seq(n, _ => v)
  }

  /**
   * s with its first element copied p times in front and its last element
   * copied p times behind.
   */
  function PadEdge<T>(s: seq<T>, p: nat): (r: seq<T>)
    requires |s| > 0
    ensures |r| == |s| + 2 * p
    ensures forall i :: 0 <= i < |r| ==> r[i] == s[Clamp(i - p, 0, |s| - 1)]
  {
    var r := Repeat(s[0], p) + s + Repeat(s[|s| - 1], p);
    assert forall i :: 0 <= i < |r| ==> r[i] == s[Clamp(i - p, 0, |s| - 1)] by {
      forall i | 0 <= i < |r| ensures r[i] == s[Clamp(i - p, 0, |s| - 1)] {
        if i < p {
        } else if i < p + |s| {
          assert r[i] == s[i - p];
        } else {
          assert r[i] == s[|s| - 1];
        }
      }
    }
    r
  }
}

=== FILE: kin.dfy ===
/**
 * The kernelized instance normalization layer of models/kin.py.
 *
 * In evaluation mode the layer either collects each sample's channel-0
 * statistics into an anchor-grid cache, or normalises one tile with the
 * unweighted mean of the cached statistics over a clamped neighbourhood of
 * its anchor. The tensor arithmetic is abstracted: a forward call reports
 * which statistics the normalisation uses and how the layer's state changes.
 */
module Kin {
  import opened Wrappers
  import opened Grids
  import opened Samples
  import opened Modes

  /** The mean and std tables of init_collection: one scalar per anchor cell. */
  datatype Tables = Tables(rows: nat, cols: nat, mean: Grid<real>, std: Grid<real>)
  {
    predicate Valid() {
      IsShape(mean, rows, cols) && IsShape(std, rows, cols)
    }
  }

  /**
   * The layer's state: the two mode flags, the tables (absent until
   * init_collection) and the stored kernel (absent until init_kernel).
   */
  datatype Layer = Layer(normal: bool, collecting: bool, tables: Option<Tables>, kernel: Option<Grid<real>>)
  {
    predicate Valid() {
      tables.Some? ==> tables.value.Valid()
    }
  }

  /** Which behaviour forward selects; the training flag belongs to the host. */
  function Dispatch(l: Layer, training: bool): Behaviour {
    Select(training, l.normal, l.collecting)
  }

  /** The layer as its constructor leaves it. */
  function NewLayer(): (l: Layer)
    ensures l.Valid() && !l.normal && !l.collecting && l.tables.None? && l.kernel.None?
  {
    Layer(false, false, None, None)
  }

  /** Which statistics the normalisation step of forward uses. */
  datatype Applied =
    | PerSample                       // each sample's own freshly computed statistics
    | Pooled(mean: real, std: real)   // one scalar pair, broadcast over the sample

  datatype Step = Step(layer: Layer, applied: Applied)

  /** The assertion and attribute failures forward can stop with. */
  datatype Error =
    | MissingAnchor      // an anchor argument is None
    | BatchSize          // kernelized inference on a batch of more than one sample
    | AnchorShape        // an inference anchor that is not a single integer
    | NotInitialized     // the tables were never created
    | AnchorOutOfRange   // an anchor outside the grid

  // ---------------------------------------------------------------------------
  // The statistics cache
  // ---------------------------------------------------------------------------

  /** Fresh zero tables of h rows and w columns; whatever was cached before is gone. */
  function InitCollection(h: nat, w: nat): (t: Tables)
    ensures t.Valid() && t.rows == h && t.cols == w
    ensures forall y, x :: 0 <= y < h && 0 <= x < w ==> t.mean[y][x] == 0.0 && t.std[y][x] == 0.0
  {
    Tables(h, w, Fill(h, w, 0.0), Fill(h, w, 0.0))
  }

  /** The number of samples the collection loop visits: zip stops at the shortest input. */
  function Visited(batch: seq<SampleStats>, ys: seq<int>, xs: seq<int>): nat {
    ZipLength(|batch|, |ys|, |xs|)
  }

  /**
   * The collection loop: for each visited sample in order, its channel-0 mean
   * and std overwrite the cell of its anchor. A cell named by several samples
   * ends up with the last one's statistics; no other cell changes.
   */
  function Collection(t: Tables, batch: seq<SampleStats>, ys: seq<int>, xs: seq<int>): (t': Tables)
    requires t.Valid() && HasChannel0(batch)
    requires AnchorsIn(t.rows, t.cols, ys, xs, Visited(batch, ys, xs))
    ensures t'.Valid() && t'.rows == t.rows && t'.cols == t.cols
    ensures forall y, x :: 0 <= y < t.rows && 0 <= x < t.cols && LastHit(ys, xs, Visited(batch, ys, xs), y, x).None? ==>
      t'.mean[y][x] == t.mean[y][x] && t'.std[y][x] == t.std[y][x]
    ensures forall y, x :: 0 <= y < t.rows && 0 <= x < t.cols && LastHit(ys, xs, Visited(batch, ys, xs), y, x).Some? ==>
      var b := LastHit(ys, xs, Visited(batch, ys, xs), y, x).value;
      t'.mean[y][x] == batch[b].mean[0] && t'.std[y][x] == batch[b].std[0]
  {
    var n := Visited(batch, ys, xs);
    var means := seq(n, b requires 0 <= b < n => batch[b].mean[0]);
    var stds := seq(n, b requires 0 <= b < n => batch[b].std[0]);
    Tables(t.rows, t.cols,
           Scatter(t.mean, t.rows, t.cols, ys, xs, means, n),
           Scatter(t.std, t.rows, t.cols, ys, xs, stds, n))
  }

  /** Two samples of one batch at the same anchor: the later one's statistics are kept. */
  lemma CollectionLastWriteWins(t: Tables, s1: SampleStats, s2: SampleStats, y: int, x: int)
    requires t.Valid() && 0 <= y < t.rows && 0 <= x < t.cols
    requires |s1.mean| > 0 && |s1.std| > 0 && |s2.mean| > 0 && |s2.std| > 0
    ensures HasChannel0([s1, s2])
    ensures AnchorsIn(t.rows, t.cols, [y, y], [x, x], 2)
    ensures Collection(t, [s1, s2], [y, y], [x, x]).mean[y][x] == s2.mean[0]
    ensures Collection(t, [s1, s2], [y, y], [x, x]).std[y][x] == s2.std[0]
  {
    assert LastHit([y, y], [x, x], 2, y, x) == Some(1);
  }

  // ---------------------------------------------------------------------------
  // Neighbourhood queries
  // ---------------------------------------------------------------------------

  /** The inclusive bounds [top, down] × [left, right] of query_neighbors' first mode. */
  datatype Bounds = Bounds(top: int, down: int, left: int, right: int)

  /**
   * Bounds mode. Cut to the grid, the bounds select exactly the rows and the
   * columns within distance p of the anchor. The lower bounds never leave the
   * grid; the upper ones are clamped to the row and column counts, one past
   * the last index, so they may name a row or column that does not exist.
   */
  function QueryBounds(t: Tables, y: int, x: int, p: int): (b: Bounds)
    ensures 0 <= y < t.rows && 0 <= x < t.cols && p >= 0 ==>
      0 <= b.top <= y <= b.down <= t.rows && 0 <= b.left <= x <= b.right <= t.cols
    ensures forall r :: 0 <= r < t.rows ==> (b.top <= r <= b.down <==> Near(r, y, p))
    ensures forall c :: 0 <= c < t.cols ==> (b.left <= c <= b.right <==> Near(c, x, p))
    // the upper bounds stop at the row and column counts, not at the last index
    ensures 0 <= y < t.rows && 0 <= x < t.cols && p >= 0 ==>
      (b.down == t.rows <==> y + p >= t.rows) && (b.right == t.cols <==> x + p >= t.cols)
  {
    Bounds(Max(0, y - p), Min(t.rows, y + p), Max(0, x - p), Min(t.cols, x + p))
  }

  /** The candidates (y + dy, x + dx) for the listed offsets that lie in an h by w grid, in order. */
  function Keep(h: nat, w: nat, y: int, x: int, offsets: seq<(int, int)>): seq<(int, int)> {
    if offsets == [] then []
    else
      var c := (y + offsets[0].0, x + offsets[0].1);
      (if InGrid(h, w, c) then [c] else []) + Keep(h, w, y, x, offsets[1..])
  }

  /**
   * List mode: the in-grid cells (y + dy, x + dx) for dy, dx in -p..p, in the
   * order of itertools.product; empty when p is 0.
   */
  function QueryNeighbors(t: Tables, y: int, x: int, p: int): (r: seq<(int, int)>)
    ensures p == 0 ==> r == []
  {
    if p == 0 then []
    else Keep(t.rows, t.cols, y, x, Product(Range(-p, p + 1), Range(-p, p + 1)))
  }

  /** The number of grid indices below n within distance p of v. */
  function Span(n: nat, v: int, p: int): nat {
    Max(0, Min(n, v + p + 1) - Max(0, v - p))
  }

  /**
   * The reference neighbourhood: the (2p+1) by (2p+1) square around (y, x)
   * clipped to an h by w grid, listed row by row.
   */
  function ClippedWindow(h: nat, w: nat, y: int, x: int, p: int): (r: seq<(int, int)>)
    ensures forall k :: 0 <= k < |r| ==> InGrid(h, w, r[k]) && Near(r[k].0, y, p) && Near(r[k].1, x, p)
    ensures InGrid(h, w, (y, x)) && p >= 0 ==> (y, x) in r
  {
    var rows := Range(Max(0, y - p), Min(h, y + p + 1));
    var cols := Range(Max(0, x - p), Min(w, x + p + 1));
    var r := Product(rows, cols);
    assert forall k :: 0 <= k < |r| ==> InGrid(h, w, r[k]) && Near(r[k].0, y, p) && Near(r[k].1, x, p) by {
      forall k | 0 <= k < |r| ensures InGrid(h, w, r[k]) && Near(r[k].0, y, p) && Near(r[k].1, x, p) {
        assert r[k] in r;
        ProductMembership(rows, cols, r[k]);
        RangeMembership(Max(0, y - p), Min(h, y + p + 1), r[k].0);
        RangeMembership(Max(0, x - p), Min(w, x + p + 1), r[k].1);
      }
    }
    ProductMembership(rows, cols, (y, x));
    RangeMembership(Max(0, y - p), Min(h, y + p + 1), y);
    RangeMembership(Max(0, x - p), Min(w, x + p + 1), x);
    r
  }

  lemma {:induction false} KeepAppend(h: nat, w: nat, y: int, x: int, a: seq<(int, int)>, b: seq<(int, int)>)
    ensures Keep(h, w, y, x, a + b) == Keep(h, w, y, x, a) + Keep(h, w, y, x, b)
  {
    if a == [] {
      assert a + b == b;
    } else {
      assert (a + b)[1..] == a[1..] + b;
      KeepAppend(h, w, y, x, a[1..], b);
    }
  }

  lemma RowCellsCons(r: int, v: int, vs: seq<int>)
    ensures RowCells(r, [v] + vs) == [(r, v)] + RowCells(r, vs)
  {
  }

  lemma KeepRowStep(h: nat, w: nat, y: int, x: int, dy: int, lo: int, hi: int)
    requires lo < hi
    ensures Keep(h, w, y, x, RowCells(dy, Range(lo, hi))) ==
      (if InGrid(h, w, (y + dy, x + lo)) then [(y + dy, x + lo)] else []) +
      Keep(h, w, y, x, RowCells(dy, Range(lo + 1, hi)))
  {
    var cells := RowCells(dy, Range(lo, hi));
    assert cells[0] == (dy, lo);
    assert cells[1..] == RowCells(dy, Range(lo + 1, hi));
  }

  /** Filtering one row of offsets dy × (lo..hi-1) keeps a contiguous, clipped run of columns. */
  lemma {:induction false} KeepRow(h: nat, w: nat, y: int, x: int, dy: int, lo: int, hi: int)
    ensures Keep(h, w, y, x, RowCells(dy, Range(lo, hi))) ==
      if 0 <= y + dy < h then RowCells(y + dy, Range(Max(0, x + lo), Min(w, x + hi))) else []
    decreases hi - lo
  {
    if lo < hi {
      var end := Min(w, x + hi);
      var rest := Keep(h, w, y, x, RowCells(dy, Range(lo + 1, hi)));
      KeepRowStep(h, w, y, x, dy, lo, hi);
      KeepRow(h, w, y, x, dy, lo + 1, hi);
      if 0 <= y + dy < h {
        KeepRowCons(h, w, y + dy, x, lo, hi, end, Max(0, x + (lo + 1)), rest);
      } else {
        assert rest == [];
      }
    } else {
      assert Range(lo, hi) == [];
      assert RowCells(dy, Range(lo, hi)) == [];
      assert Range(Max(0, x + lo), Min(w, x + hi)) == [];
    }
  }

  /** One more candidate column in front of a clipped run of row r extends the run exactly when it is in the grid. */
  lemma KeepRowCons(h: nat, w: nat, r: int, x: int, lo: int, hi: int, end: int, next: int, rest: seq<(int, int)>)
    requires 0 <= r < h && end == Min(w, x + hi) && lo < hi
    requires next == Max(0, x + (lo + 1)) && rest == RowCells(r, Range(next, end))
    ensures (if InGrid(h, w, (r, x + lo)) then [(r, x + lo)] else []) + rest == RowCells(r, Range(Max(0, x + lo), end))
  {
    if x + lo < 0 {
      assert Max(0, x + lo) == next;
    } else if x + lo < w {
      assert next == x + lo + 1 && Max(0, x + lo) == x + lo;
      assert Range(x + lo, end) == [x + lo] + Range(next, end);
      RowCellsCons(r, x + lo, Range(next, end));
    } else {
      assert Range(Max(0, x + lo), end) == [];
      assert Range(next, end) == [];
    }
  }

  /** Filtering the whole offset square keeps the clipped window, row by row. */
  lemma {:induction false} KeepRows(h: nat, w: nat, y: int, x: int, rlo: int, rhi: int, clo: int, chi: int)
    ensures Keep(h, w, y, x, Product(Range(rlo, rhi), Range(clo, chi))) ==
      Product(Range(Max(0, y + rlo), Min(h, y + rhi)), Range(Max(0, x + clo), Min(w, x + chi)))
    decreases rhi - rlo
  {
    var cols := Range(Max(0, x + clo), Min(w, x + chi));
    if rlo < rhi {
      var row := RowCells(rlo, Range(clo, chi));
      var rest := Product(Range(rlo + 1, rhi), Range(clo, chi));
      var next := Max(0, y + (rlo + 1));
      var kept := Product(Range(next, Min(h, y + rhi)), cols);
      ProductStep(rlo, rhi, Range(clo, chi));
      KeepAppend(h, w, y, x, row, rest);
      KeepRow(h, w, y, x, rlo, clo, chi);
      KeepRows(h, w, y, x, rlo + 1, rhi, clo, chi);
      assert Keep(h, w, y, x, rest) == kept;
      if y + rlo < 0 {
        assert Keep(h, w, y, x, row) == [];
        assert Max(0, y + rlo) == next;
      } else if y + rlo < h {
        assert Keep(h, w, y, x, row) == RowCells(y + rlo, cols);
        assert Max(0, y + rlo) == y + rlo && next == y + rlo + 1;
        ProductStep(y + rlo, Min(h, y + rhi), cols);
      } else {
        assert Keep(h, w, y, x, row) == [];
        assert Range(next, Min(h, y + rhi)) == [];
        assert Range(Max(0, y + rlo), Min(h, y + rhi)) == [];
      }
    }
  }

  /** For p >= 1 the neighbour list is exactly the clipped window, in the same order. */
  lemma NeighborsAreClippedWindow(t: Tables, y: int, x: int, p: int)
    requires p >= 1
    ensures QueryNeighbors(t, y, x, p) == ClippedWindow(t.rows, t.cols, y, x, p)
  {
    var top, bottom := Max(0, y - p), Min(t.rows, y + p + 1);
    var left, right := Max(0, x - p), Min(t.cols, x + p + 1);
    KeepSquare(t.rows, t.cols, y, x, p, top, bottom, left, right);
  }

  /** Filtering the offsets -p..p × -p..p keeps the window [top, bottom) × [left, right). */
  lemma KeepSquare(h: nat, w: nat, y: int, x: int, p: int, top: int, bottom: int, left: int, right: int)
    requires top == Max(0, y - p) && bottom == Min(h, y + p + 1)
    requires left == Max(0, x - p) && right == Min(w, x + p + 1)
    ensures Keep(h, w, y, x, Product(Range(-p, p + 1), Range(-p, p + 1))) == Product(Range(top, bottom), Range(left, right))
  {
    var lo, hi := -p, p + 1;
    var offsets := Product(Range(lo, hi), Range(lo, hi));
    KeepRows(h, w, y, x, lo, hi, lo, hi);
    assert Max(0, y + lo) == top && Min(h, y + hi) == bottom;
    assert Max(0, x + lo) == left && Min(w, x + hi) == right;
    assert Keep(h, w, y, x, offsets) == Product(Range(top, bottom), Range(left, right));
  }

  /**
   * List mode returns exactly the in-grid cells within Chebyshev distance p of
   * the anchor, the anchor itself included, and only when p >= 1.
   */
  lemma NeighborsMembership(t: Tables, y: int, x: int, p: int, c: (int, int))
    ensures c in QueryNeighbors(t, y, x, p) <==>
      p >= 1 && InGrid(t.rows, t.cols, c) && Near(c.0, y, p) && Near(c.1, x, p)
  {
    if p >= 1 {
      NeighborsAreClippedWindow(t, y, x, p);
      ProductMembership(Range(Max(0, y - p), Min(t.rows, y + p + 1)), Range(Max(0, x - p), Min(t.cols, x + p + 1)), c);
      RangeMembership(Max(0, y - p), Min(t.rows, y + p + 1), c.0);
      RangeMembership(Max(0, x - p), Min(t.cols, x + p + 1), c.1);
    } else if p < 0 {
      assert Range(-p, p + 1) == [];
    }
  }

  /** List mode enumerates its cells in strictly increasing row-major order, so none repeats. */
  lemma NeighborsRowMajor(t: Tables, y: int, x: int, p: int)
    ensures RowMajor(QueryNeighbors(t, y, x, p))
    ensures NoDuplicates(QueryNeighbors(t, y, x, p))
  {
    if p >= 1 {
      NeighborsAreClippedWindow(t, y, x, p);
      ProductRowMajor(Range(Max(0, y - p), Min(t.rows, y + p + 1)), Range(Max(0, x - p), Min(t.cols, x + p + 1)));
    } else if p < 0 {
      assert Range(-p, p + 1) == [];
    }
    RowMajorHasNoDuplicates(QueryNeighbors(t, y, x, p));
  }

  /** For p >= 1, list mode returns as many cells as the clipped window has. */
  lemma NeighborsCount(t: Tables, y: int, x: int, p: int)
    requires p >= 1
    ensures |QueryNeighbors(t, y, x, p)| == Span(t.rows, y, p) * Span(t.cols, x, p)
  {
    NeighborsAreClippedWindow(t, y, x, p);
    ProductLength(Range(Max(0, y - p), Min(t.rows, y + p + 1)), Range(Max(0, x - p), Min(t.cols, x + p + 1)));
  }

  // ---------------------------------------------------------------------------
  // Inference statistics
  // ---------------------------------------------------------------------------

  /** The values of table[top:down+1, left:right+1], row by row. */
  function SliceValues(g: Grid<real>, b: Bounds): seq<real>
    requires b.top >= 0 && b.down >= -1 && b.left >= 0 && b.right >= -1
  {
    Flatten(Crop(PySlice(g, b.top, b.down + 1), b.left, b.right + 1))
  }

  /**
   * The slice taken with the bounds of an in-grid anchor reads exactly the
   * clipped window: the end clamp of the slice absorbs an upper bound that
   * points one past the last row or column.
   */
  lemma SliceIsClippedWindow(g: Grid<real>, t: Tables, y: int, x: int, p: int)
    requires IsShape(g, t.rows, t.cols)
    requires 0 <= y < t.rows && 0 <= x < t.cols && p >= 0
    ensures CellsIn(g, ClippedWindow(t.rows, t.cols, y, x, p))
    ensures SliceValues(g, QueryBounds(t, y, x, p)) == Gather(g, ClippedWindow(t.rows, t.cols, y, x, p))
  {
    var top, left := Max(0, y - p), Max(0, x - p);
    var bottom := Min(t.rows, y + p + 1);
    var end := Min(t.cols, x + p + 1);
    assert ClippedWindow(t.rows, t.cols, y, x, p) == Product(Range(top, bottom), Range(left, end));
    var b := QueryBounds(t, y, x, p);
    assert b == Bounds(top, Min(t.rows, y + p), left, Min(t.cols, x + p));
    EndClamp(t.rows, y, p);
    EndClamp(t.cols, x, p);
    SliceValuesGather(g, t.rows, t.cols, b, bottom, end);
  }

  /** The values a bounds-mode slice reads, once its ends are cut to the grid. */
  lemma SliceValuesGather(g: Grid<real>, h: nat, w: nat, b: Bounds, bottom: nat, end: nat)
    requires IsShape(g, h, w) && b.top >= 0 && b.down >= -1 && b.left >= 0 && b.right >= -1
    requires b.top <= bottom <= h && b.left <= end <= w
    requires bottom == Min(b.down + 1, h) && end == Min(b.right + 1, w)
    ensures CellsIn(g, Product(Range(b.top, bottom), Range(b.left, end)))
    ensures SliceValues(g, b) == Gather(g, Product(Range(b.top, bottom), Range(b.left, end)))
  {
    var hi, wide := b.down + 1, b.right + 1;
    assert SliceValues(g, b) == Flatten(Crop(PySlice(g, b.top, hi), b.left, wide));
    SliceIsGather(g, h, w, b.top, hi, bottom, b.left, wide, end);
  }

  /**
   * Slicing rows top:hi and columns left:wide of an h by w grid reads the
   * cells of Range(top, bottom) × Range(left, end), where bottom and end are
   * the slice ends cut to the grid.
   */
  lemma SliceIsGather<T>(g: Grid<T>, h: nat, w: nat, top: nat, hi: nat, bottom: nat, left: nat, wide: nat, end: nat)
    requires IsShape(g, h, w) && top <= bottom <= h && left <= end <= w
    requires bottom == Min(hi, h) && end == Min(wide, w)
    ensures CellsIn(g, Product(Range(top, bottom), Range(left, end)))
    ensures Flatten(Crop(PySlice(g, top, hi), left, wide)) == Gather(g, Product(Range(top, bottom), Range(left, end)))
  {
    SliceEndClamp(g, top, hi, bottom);
    CropEndClamp(g[top..bottom], w, left, wide, end);
    CropIsGather(g, h, w, top, bottom, left, end);
  }

  /** Bounds mode's inclusive end, plus one and cut to n, is the clipped window's exclusive end. */
  lemma EndClamp(n: nat, v: int, p: int)
    requires 0 <= v < n && p >= 0
    ensures Min(Min(n, v + p) + 1, n) == Min(n, v + p + 1)
    ensures 0 <= Max(0, v - p) <= Min(n, v + p + 1) <= n
  {
  }

  /** A slice whose end passes the length reads to the end, like one that stops exactly there. */
  lemma SliceEndClamp<T>(s: seq<T>, lo: nat, hi: nat, end: nat)
    requires lo <= end <= |s| && end == Min(hi, |s|)
    ensures PySlice(s, lo, hi) == s[lo..end]
  {
  }

  /** Cropping rows of width w to two column ends that agree once cut to w gives the same rows. */
  lemma CropEndClamp<T>(rows: seq<seq<T>>, w: nat, lo: nat, hi: nat, end: nat)
    requires forall i :: 0 <= i < |rows| ==> |rows[i]| == w
    requires lo <= end <= w && end == Min(hi, w)
    ensures Crop(rows, lo, hi) == Crop(rows, lo, end)
  {
    forall i | 0 <= i < |rows| ensures PySlice(rows[i], lo, hi) == PySlice(rows[i], lo, end) {
      SliceEndClamp(rows[i], lo, hi, end);
    }
  }

  /**
   * The pooled statistics of inference: the unweighted means of the mean and
   * std tables over the clipped window around the anchor. The kernel plays no
   * part; for p >= 1 the window is the list-mode neighbour list, for p == 0
   * the anchor's own cell.
   */
  function PooledStats(t: Tables, y: int, x: int, p: nat): (r: Applied)
    requires t.Valid() && 0 <= y < t.rows && 0 <= x < t.cols
    ensures CellsIn(t.mean, ClippedWindow(t.rows, t.cols, y, x, p))
    ensures CellsIn(t.std, ClippedWindow(t.rows, t.cols, y, x, p))
    ensures |ClippedWindow(t.rows, t.cols, y, x, p)| > 0
    ensures r == Pooled(Mean(Gather(t.mean, ClippedWindow(t.rows, t.cols, y, x, p))),
                        Mean(Gather(t.std, ClippedWindow(t.rows, t.cols, y, x, p))))
  {
    var b := QueryBounds(t, y, x, p);
    SliceIsClippedWindow(t.mean, t, y, x, p);
    SliceIsClippedWindow(t.std, t, y, x, p);
    Pooled(Mean(SliceValues(t.mean, b)), Mean(SliceValues(t.std, b)))
  }

  /** With p >= 1 the pooled statistics average exactly the list-mode neighbours. */
  lemma PooledOverNeighbors(t: Tables, y: int, x: int, p: nat)
    requires t.Valid() && 0 <= y < t.rows && 0 <= x < t.cols && p >= 1
    ensures CellsIn(t.mean, QueryNeighbors(t, y, x, p)) && CellsIn(t.std, QueryNeighbors(t, y, x, p))
    ensures |QueryNeighbors(t, y, x, p)| > 0
    ensures PooledStats(t, y, x, p) ==
      Pooled(Mean(Gather(t.mean, QueryNeighbors(t, y, x, p))), Mean(Gather(t.std, QueryNeighbors(t, y, x, p))))
  {
    NeighborsAreClippedWindow(t, y, x, p);
    var r := PooledStats(t, y, x, p);
  }

  lemma MeanOfOne(s: seq<real>)
    requires |s| == 1
    ensures Mean(s) == s[0]
  {
    assert s[1..] == [];
    assert Sum(s) == s[0] + Sum(s[1..]);
    assert Sum(s) == s[0];
    assert (|s| as real) == 1.0;
  }

  /** With p == 0 the pooled statistics are the anchor's own cached cell. */
  lemma PooledWithoutPadding(t: Tables, y: int, x: int)
    requires t.Valid() && 0 <= y < t.rows && 0 <= x < t.cols
    ensures PooledStats(t, y, x, 0) == Pooled(t.mean[y][x], t.std[y][x])
  {
    var w := ClippedWindow(t.rows, t.cols, y, x, 0);
    var r := PooledStats(t, y, x, 0);
    assert Max(0, y - 0) == y && Min(t.rows, y + 0 + 1) == y + 1;
    assert Max(0, x - 0) == x && Min(t.cols, x + 0 + 1) == x + 1;
    assert Range(y, y + 1) == [y] && Range(x, x + 1) == [x];
    assert Product([y], [x]) == RowCells(y, [x]) + Product([], [x]);
    assert w == [(y, x)];
    MeanOfOne(Gather(t.mean, w));
    MeanOfOne(Gather(t.std, w));
  }

  // ---------------------------------------------------------------------------
  // Forward
  // ---------------------------------------------------------------------------

  /**
   * forward, with the tensor numerics abstracted into the statistics of each
   * sample. Anchors are sequences: collection zips over them, and inference
   * takes a one-element sequence for its single anchor.
   */
  function Forward(l: Layer, training: bool, batch: seq<SampleStats>,
                   ys: Option<seq<int>>, xs: Option<seq<int>>, padding: nat): (r: Result<Step, Error>)
    requires l.Valid() && (Dispatch(l, training) == Collect ==> HasChannel0(batch))
    // training or the override: plain normalisation, anchors ignored, nothing changes
    ensures Dispatch(l, training) == Plain ==> r == Ok(Step(l, PerSample))
    // otherwise both anchors are required
    ensures Dispatch(l, training) != Plain && (ys.None? || xs.None?) ==> r == Err(MissingAnchor)
    // inference is single-sample only
    ensures Dispatch(l, training) == Kernelized && ys.Some? && xs.Some? && |batch| != 1 ==> r == Err(BatchSize)
    // collecting with both anchors succeeds exactly when every visited anchor is in the grid;
    // without tables that means no sample is visited, since only the loop body reads them
    ensures Dispatch(l, training) == Collect && ys.Some? && xs.Some? ==>
      (r.Ok? <==> if l.tables.Some?
                  then AnchorsIn(l.tables.value.rows, l.tables.value.cols, ys.value, xs.value, Visited(batch, ys.value, xs.value))
                  else Visited(batch, ys.value, xs.value) == 0)
    // inference with both anchors succeeds exactly for one sample, one in-grid anchor and existing tables
    ensures Dispatch(l, training) == Kernelized && ys.Some? && xs.Some? ==>
      (r.Ok? <==> |batch| == 1 && |ys.value| == 1 && |xs.value| == 1 && l.tables.Some? &&
                  InGrid(l.tables.value.rows, l.tables.value.cols, (ys.value[0], xs.value[0])))
    // collecting: per-sample statistics are applied and only the tables change
    ensures r.Ok? && Dispatch(l, training) == Collect ==>
      r.value.applied == PerSample && (l.tables.None? ==> r.value.layer == l) &&
      (l.tables.Some? ==>
        AnchorsIn(l.tables.value.rows, l.tables.value.cols, ys.value, xs.value, Visited(batch, ys.value, xs.value)) &&
        r.value.layer == l.(tables := Some(Collection(l.tables.value, batch, ys.value, xs.value))))
    // inference: the window means are applied and the layer is unchanged
    ensures r.Ok? && Dispatch(l, training) == Kernelized ==>
      r.value.layer == l && l.tables.Some? && |ys.value| == 1 && |xs.value| == 1 &&
      InGrid(l.tables.value.rows, l.tables.value.cols, (ys.value[0], xs.value[0])) &&
      r.value.applied == PooledStats(l.tables.value, ys.value[0], xs.value[0], padding)
    ensures r.Ok? ==> r.value.layer.Valid()
  {
    match Dispatch(l, training)
    case Plain => Ok(Step(l, PerSample))
    case Collect =>
      if ys.None? || xs.None? then Err(MissingAnchor)
      else if l.tables.None? then
        if Visited(batch, ys.value, xs.value) == 0 then Ok(Step(l, PerSample)) else Err(NotInitialized)
      else
        var t := l.tables.value;
        if !AnchorsIn(t.rows, t.cols, ys.value, xs.value, Visited(batch, ys.value, xs.value)) then Err(AnchorOutOfRange)
        else Ok(Step(l.(tables := Some(Collection(t, batch, ys.value, xs.value))), PerSample))
    case Kernelized =>
      if ys.None? || xs.None? then Err(MissingAnchor)
      else if |batch| != 1 then Err(BatchSize)
      else if |ys.value| != 1 || |xs.value| != 1 then Err(AnchorShape)
      else if l.tables.None? then Err(NotInitialized)
      else
        var t := l.tables.value;
        var y := ys.value[0];
        var x := xs.value[0];
        if !InGrid(t.rows, t.cols, (y, x)) then Err(AnchorOutOfRange)
        else Ok(Step(l, PooledStats(t, y, x, padding)))
  }

  /** The stored kernel never influences forward. */
  lemma KernelUnused(l: Layer, k1: Option<Grid<real>>, k2: Option<Grid<real>>, training: bool,
                     batch: seq<SampleStats>, ys: Option<seq<int>>, xs: Option<seq<int>>, padding: nat)
    requires l.Valid() && (Dispatch(l, training) == Collect ==> HasChannel0(batch))
    ensures Forward(l.(kernel := k1), training, batch, ys, xs, padding).Ok? <==>
            Forward(l.(kernel := k2), training, batch, ys, xs, padding).Ok?
    ensures Forward(l.(kernel := k1), training, batch, ys, xs, padding).Ok? ==>
            Forward(l.(kernel := k1), training, batch, ys, xs, padding).value.applied ==
            Forward(l.(kernel := k2), training, batch, ys, xs, padding).value.applied
  {
  }

  /**
   * The worked example: on a 1 by 2 grid, anchor (0, 0) with padding 1 pools
   * both cells, so cached means 1 and 3 give 2.
   */
  lemma InferenceExample(t: Tables, y: int, x: int, p: nat)
    requires t.Valid() && t.rows == 1 && t.cols == 2 && y == 0 && x == 0 && p == 1
    ensures PooledStats(t, y, x, p) ==
      Pooled((t.mean[0][0] + t.mean[0][1]) / 2.0, (t.std[0][0] + t.std[0][1]) / 2.0)
  {
    var w := ClippedWindow(t.rows, t.cols, y, x, p);
    assert Max(0, y - p) == 0 && Min(t.rows, y + p + 1) == 1 && Min(t.cols, x + p + 1) == 2;
    assert Range(0, 1) == [0];
    assert Range(1, 2) == [1];
    assert Range(0, 2) == [0] + Range(1, 2);
    assert Product([0], [0, 1]) == RowCells(0, [0, 1]) + Product([], [0, 1]);
    assert w == [(0, 0), (0, 1)];
    MeanOfTwo(Gather(t.mean, w));
    MeanOfTwo(Gather(t.std, w));
  }

  lemma MeanOfTwo(s: seq<real>)
    requires |s| == 2
    ensures Mean(s) == (s[0] + s[1]) / 2.0
  {
    assert s[1..][1..] == [];
    assert Sum(s) == s[0] + Sum(s[1..]);
    assert Sum(s[1..]) == s[1] + Sum(s[1..][1..]);
  }

  // ---------------------------------------------------------------------------
  // Mode transitions over a host network
  // ---------------------------------------------------------------------------

  /** Collecting implies the tables exist, and the two flags are never both set. */
  predicate Consistent(l: Layer) {
    l.Valid() && !(l.collecting && l.normal) && (l.collecting ==> l.tables.Some?)
  }

  /** not_use_kernelized_instance_norm: every layer falls back to plain normalisation. */
  function NotUseKernelized(net: seq<Module<Layer>>): (net': seq<Module<Layer>>)
    ensures |net'| == |net|
    ensures forall i :: 0 <= i < |net| && net[i].Other? ==> net'[i] == net[i]
    ensures forall i :: 0 <= i < |net| && net[i].Norm? ==>
      net'[i].Norm? && !net'[i].layer.collecting &&
      Dispatch(net'[i].layer, false) == Plain &&
      net'[i].layer.tables == net[i].layer.tables && net'[i].layer.kernel == net[i].layer.kernel
  {
    ForEachNorm(net, (l: Layer) => l.(collecting := false, normal := true))
  }

  /**
   * init_kernelized_instance_norm: every layer starts collecting into fresh
   * zero tables of the given size and stores the kernel.
   */
  function InitKernelized(net: seq<Module<Layer>>, h: nat, w: nat, kernel: Grid<real>): (net': seq<Module<Layer>>)
    ensures |net'| == |net|
    ensures forall i :: 0 <= i < |net| && net[i].Other? ==> net'[i] == net[i]
    ensures forall i :: 0 <= i < |net| && net[i].Norm? ==>
      net'[i].Norm? && Dispatch(net'[i].layer, false) == Collect && !net'[i].layer.normal &&
      net'[i].layer.tables == Some(InitCollection(h, w)) && net'[i].layer.kernel == Some(kernel)
  {
    ForEachNorm(net, (l: Layer) => l.(collecting := true, normal := false,
                             tables := Some(InitCollection(h, w)), kernel := Some(kernel)))
  }

  /** use_kernelized_instance_norm: every layer switches to kernelized inference. */
  function UseKernelized(net: seq<Module<Layer>>): (net': seq<Module<Layer>>)
    ensures |net'| == |net|
    ensures forall i :: 0 <= i < |net| && net[i].Other? ==> net'[i] == net[i]
    ensures forall i :: 0 <= i < |net| && net[i].Norm? ==>
      net'[i].Norm? && Dispatch(net'[i].layer, false) == Kernelized &&
      net'[i].layer.tables == net[i].layer.tables && net'[i].layer.kernel == net[i].layer.kernel
  {
    ForEachNorm(net, (l: Layer) => l.(collecting := false, normal := false))
  }

  lemma TransitionsIdempotent(net: seq<Module<Layer>>, h: nat, w: nat, kernel: Grid<real>)
    ensures NotUseKernelized(NotUseKernelized(net)) == NotUseKernelized(net)
    ensures InitKernelized(InitKernelized(net, h, w, kernel), h, w, kernel) == InitKernelized(net, h, w, kernel)
    ensures UseKernelized(UseKernelized(net)) == UseKernelized(net)
  {
  }

  /** Every normalisation layer of the network is consistent. */
  predicate AllConsistent(net: seq<Module<Layer>>) {
    forall i :: 0 <= i < |net| && net[i].Norm? ==> Consistent(net[i].layer)
  }

  /** The constructor and every transition keep the layers consistent. */
  lemma TransitionsKeepConsistent(net: seq<Module<Layer>>, h: nat, w: nat, kernel: Grid<real>)
    requires AllConsistent(net)
    ensures Consistent(NewLayer())
    ensures AllConsistent(NotUseKernelized(net))
    ensures AllConsistent(InitKernelized(net, h, w, kernel))
    ensures AllConsistent(UseKernelized(net))
  {
  }

  /**
   * On a consistent layer a collecting forward with in-grid anchors always
   * succeeds, and the layer stays consistent.
   */
  lemma CollectSucceeds(l: Layer, batch: seq<SampleStats>, ys: seq<int>, xs: seq<int>, padding: nat)
    requires Consistent(l) && HasChannel0(batch) && Dispatch(l, false) == Collect
    requires AnchorsIn(l.tables.value.rows, l.tables.value.cols, ys, xs, Visited(batch, ys, xs))
    ensures Forward(l, false, batch, Some(ys), Some(xs), padding).Ok?
    ensures Consistent(Forward(l, false, batch, Some(ys), Some(xs), padding).value.layer)
  {
  }

  /** A freshly constructed layer in evaluation mode cannot run an anchored forward. */
  lemma NewLayerNeedsInit(batch: seq<SampleStats>, ys: seq<int>, xs: seq<int>, padding: nat)
    requires |batch| == 1 && |ys| == 1 && |xs| == 1
    ensures Forward(NewLayer(), false, batch, Some(ys), Some(xs), padding) == Err(NotInitialized)
  {
  }

  /**
   * The collect-then-infer round trip through the host network: initialise,
   * collect one batch at in-grid anchors, switch to kernelized inference, then
   * normalise one tile at an in-grid anchor. Inference succeeds, keeps the
   * layer, and pools the collected tables around the anchor.
   */
  lemma CollectThenInfer(l: Layer, h: nat, w: nat, kernel: Grid<real>, batch: seq<SampleStats>,
                         ys: seq<int>, xs: seq<int>, tile: SampleStats, y: int, x: int, padding: nat)
    requires l.Valid() && HasChannel0(batch)
    requires AnchorsIn(h, w, ys, xs, Visited(batch, ys, xs)) && InGrid(h, w, (y, x))
    ensures Forward(InitKernelized([Norm(l)], h, w, kernel)[0].layer, false, batch, Some(ys), Some(xs), padding).Ok?
    ensures var collected := Forward(InitKernelized([Norm(l)], h, w, kernel)[0].layer, false, batch, Some(ys), Some(xs), padding);
      var inferring := UseKernelized([Norm(collected.value.layer)])[0].layer;
      inferring.tables == Some(Collection(InitCollection(h, w), batch, ys, xs)) &&
      Forward(inferring, false, [tile], Some([y]), Some([x]), padding) ==
        Ok(Step(inferring, PooledStats(Collection(InitCollection(h, w), batch, ys, xs), y, x, padding)))
  {
  }
}

=== FILE: lsesim_kin.dfy ===
/**
 * The kernelized instance normalization layer of F-LSeSim/models/kin.py.
 *
 * This variant caches a whole per-channel statistics vector per anchor. At
 * inference it reads a fixed (2p+1) by (2p+1) window out of a
 * replication-padded snapshot of the cache, taken when kernelized inference
 * is switched on, and weights the window with the kernel.
 */
module LSeSimKin {
  import opened Wrappers
  import opened Grids
  import opened Samples
  import opened Modes

  /** A real matrix with its shape: the kernel tensor. */
  datatype Matrix = Matrix(rows: nat, cols: nat, cells: Grid<real>)
  {
    predicate Valid() {
      IsShape(cells, rows, cols)
    }
  }

  /** The mean and std tables of init_collection: cell [y][x] holds one value per channel. */
  datatype Tables = Tables(rows: nat, cols: nat, mean: Grid<seq<real>>, std: Grid<seq<real>>)
  {
    predicate Valid(channels: nat) {
      IsShape(mean, rows, cols) && IsShape(std, rows, cols) &&
      (forall y, x :: 0 <= y < rows && 0 <= x < cols ==> |mean[y][x]| == channels && |std[y][x]| == channels)
    }
  }

  /**
   * The padded tables of pad_table, channel first: plane[c][i][j]. rows and
   * cols are the size of the table they were taken from.
   */
  datatype Padded = Padded(rows: nat, cols: nat, mean: seq<Grid<real>>, std: seq<Grid<real>>)
  {
    predicate Valid(channels: nat, p: nat) {
      rows > 0 && cols > 0 && |mean| == channels && |std| == channels &&
      (forall c :: 0 <= c < channels ==>
        IsShape(mean[c], rows + 2 * p, cols + 2 * p) && IsShape(std[c], rows + 2 * p, cols + 2 * p))
    }
  }

  /** The layer's configuration, its mode flags, its cache and its padded snapshot. */
  datatype Layer = Layer(
    numFeatures: nat, kernelSize: int, padding: nat, kernel: Matrix,
    normal: bool, collecting: bool, tables: Option<Tables>, padded: Option<Padded>)
  {
    predicate Valid() {
      && kernel.Valid()
      && (tables.Some? ==> tables.value.Valid(numFeatures))
      && (padded.Some? ==> padded.value.Valid(numFeatures, padding))
    }
  }

  function Dispatch(l: Layer, training: bool): Behaviour {
    Select(training, l.normal, l.collecting)
  }

  /** Which statistics the normalisation step of forward uses, and whether weight and bias follow. */
  datatype Applied =
    | PerSample(affine: bool)                   // each sample's own freshly computed statistics
    | Pooled(mean: seq<real>, std: seq<real>)   // one vector pair, then the affine step

  datatype Step = Step(layer: Layer, applied: Applied)

  datatype Error =
    | EvenKernelSize     // the constructor's ValueError
    | MissingAnchor      // an anchor argument is None
    | BatchSize          // kernelized inference on a batch of more than one sample
    | AnchorShape        // anchors that do not match the batch
    | NotInitialized     // the tables or their padded copies were never created
    | AnchorOutOfRange   // an anchor outside the grid
    | EmptyTable         // replication padding of a table with an empty dimension
    | ShapeMismatch      // window and kernel shapes that do not broadcast

  // ---------------------------------------------------------------------------
  // Construction and the cache
  // ---------------------------------------------------------------------------

  /**
   * The constructor. An even kernel size is rejected; any odd one, negative
   * included, is accepted (Python's % with divisor 2 agrees with Dafny's).
   * kernel stands for what get_kernel returns for this size and type.
   */
  function New(numFeatures: nat, kernelSize: int, padding: nat, kernel: Matrix): (r: Result<Layer, Error>)
    requires kernel.Valid()
    ensures r.Err? <==> kernelSize % 2 == 0
    ensures r.Err? ==> r.error == EvenKernelSize
    ensures r.Ok? ==> r.value.Valid() && !r.value.normal && !r.value.collecting
    ensures r.Ok? ==> r.value.tables.None? && r.value.padded.None?
    ensures r.Ok? ==> r.value.numFeatures == numFeatures && r.value.kernelSize == kernelSize &&
                      r.value.padding == padding && r.value.kernel == kernel
  {
    if kernelSize % 2 == 0 then Err(EvenKernelSize)
    else Ok(Layer(numFeatures, kernelSize, padding, kernel, false, false, None, None))
  }

  /** Fresh zero tables of h by w cells with c channels each. */
  function InitCollection(c: nat, h: nat, w: nat): (t: Tables)
    ensures t.Valid(c) && t.rows == h && t.cols == w
    ensures forall y, x :: 0 <= y < h && 0 <= x < w ==>
      t.mean[y][x] == Repeat(0.0, c) && t.std[y][x] == Repeat(0.0, c)
  {
    Tables(h, w, Fill(h, w, Repeat(0.0, c)), Fill(h, w, Repeat(0.0, c)))
  }

  /**
   * The collection step: every cell some anchor (ys[b], xs[b]) names takes
   * sample b's whole mean and std vectors, the last such sample when several
   * name it; every other cell keeps its value.
   */
  function Collection(t: Tables, c: nat, batch: seq<SampleStats>, ys: seq<int>, xs: seq<int>): (t': Tables)
    requires t.Valid(c) && HasChannels(batch, c)
    requires |ys| == |batch| && |xs| == |batch| && AnchorsIn(t.rows, t.cols, ys, xs, |batch|)
    ensures t'.Valid(c) && t'.rows == t.rows && t'.cols == t.cols
    ensures forall y, x :: 0 <= y < t.rows && 0 <= x < t.cols && LastHit(ys, xs, |batch|, y, x).Some? ==>
      t'.mean[y][x] == batch[LastHit(ys, xs, |batch|, y, x).value].mean &&
      t'.std[y][x] == batch[LastHit(ys, xs, |batch|, y, x).value].std
    ensures forall y, x :: 0 <= y < t.rows && 0 <= x < t.cols && LastHit(ys, xs, |batch|, y, x).None? ==>
      t'.mean[y][x] == t.mean[y][x] && t'.std[y][x] == t.std[y][x]
  {
    var n := |batch|;
    var means := seq(n, b requires 0 <= b < n => batch[b].mean);
    var stds := seq(n, b requires 0 <= b < n => batch[b].std);
    Tables(t.rows, t.cols,
      Scatter(t.mean, t.rows, t.cols, ys, xs, means, n),
      Scatter(t.std, t.rows, t.cols, ys, xs, stds, n))
  }

  /** With distinct anchors, each sample's vectors land in its own anchor's cell. */
  lemma CollectDistinct(t: Tables, c: nat, batch: seq<SampleStats>, ys: seq<int>, xs: seq<int>, b: nat)
    requires t.Valid(c) && HasChannels(batch, c)
    requires |ys| == |batch| && |xs| == |batch| && AnchorsIn(t.rows, t.cols, ys, xs, |batch|)
    requires DistinctAnchors(ys, xs, |batch|) && b < |batch|
    ensures Collection(t, c, batch, ys, xs).mean[ys[b]][xs[b]] == batch[b].mean
    ensures Collection(t, c, batch, ys, xs).std[ys[b]][xs[b]] == batch[b].std
  {
    LastHitDistinct(ys, xs, |batch|, b);
  }

  // ---------------------------------------------------------------------------
  // Replication padding
  // ---------------------------------------------------------------------------

  /** Channel c of an [H][W][C] table as an [H][W] plane (the permute of pad_table). */
  function Plane(g: Grid<seq<real>>, h: nat, w: nat, c: nat): (plane: Grid<real>)
    requires IsShape(g, h, w) && forall y, x :: 0 <= y < h && 0 <= x < w ==> c < |g[y][x]|
    ensures IsShape(plane, h, w)
    ensures forall y, x :: 0 <= y < h && 0 <= x < w ==> plane[y][x] == g[y][x][c]
  {
    seq(h, y requires 0 <= y < h => seq(w, x requires 0 <= x < w => g[y][x][c]))
  }

  /**
   * Replication padding of one plane by p on every side: the edge rows are
   * copied p times above and below, then every row's edge cells p times
   * left and right. Each padded cell repeats the nearest cell of the plane.
   */
  function PadPlane(g: Grid<real>, h: nat, w: nat, p: nat): (r: Grid<real>)
    requires IsShape(g, h, w) && h > 0 && w > 0
    ensures IsShape(r, h + 2 * p, w + 2 * p)
    ensures forall i, j :: 0 <= i < h + 2 * p && 0 <= j < w + 2 * p ==>
      r[i][j] == g[Clamp(i - p, 0, h - 1)][Clamp(j - p, 0, w - 1)]
  {
    var rows := PadEdge(g, p);
    assert forall i :: 0 <= i < |rows| ==> |rows[i]| == w;
    seq(|rows|, i requires 0 <= i < |rows| => PadEdge(rows[i], p))
  }

  /** Channel k of an [H][W][C] table, replication-padded by p on every side. */
  function PadChannel(g: Grid<seq<real>>, h: nat, w: nat, k: nat, p: nat): (r: Grid<real>)
    requires IsShape(g, h, w) && h > 0 && w > 0
    requires forall y, x :: 0 <= y < h && 0 <= x < w ==> k < |g[y][x]|
    ensures IsShape(r, h + 2 * p, w + 2 * p)
    ensures forall i, j :: 0 <= i < h + 2 * p && 0 <= j < w + 2 * p ==>
      r[i][j] == g[Clamp(i - p, 0, h - 1)][Clamp(j - p, 0, w - 1)][k]
  {
    PadPlane(Plane(g, h, w, k), h, w, p)
  }

  /**
   * pad_table: replication-pads every channel plane of both tables. A table
   * with an empty dimension cannot be padded.
   */
  function PadTable(t: Tables, c: nat, p: nat): (r: Result<Padded, Error>)
    requires t.Valid(c)
    ensures r.Err? <==> t.rows == 0 || t.cols == 0 || c == 0
    ensures r.Err? ==> r.error == EmptyTable
    ensures r.Ok? ==> r.value.Valid(c, p) && r.value.rows == t.rows && r.value.cols == t.cols
    ensures r.Ok? ==> forall k :: 0 <= k < c ==>
      r.value.mean[k] == PadChannel(t.mean, t.rows, t.cols, k, p) &&
      r.value.std[k] == PadChannel(t.std, t.rows, t.cols, k, p)
  {
    if t.rows == 0 || t.cols == 0 || c == 0 then Err(EmptyTable)
    else
      Ok(Padded(t.rows, t.cols,
        seq(c, k requires 0 <= k < c => PadChannel(t.mean, t.rows, t.cols, k, p)),
        seq(c, k requires 0 <= k < c => PadChannel(t.std, t.rows, t.cols, k, p))))
  }

  /**
   * The padded tables repeat the edge: a padded cell holds the table cell
   * nearest to it, and the interior is the table itself, shifted by p.
   */
  lemma PadTableCells(t: Tables, c: nat, p: nat, k: nat, i: nat, j: nat)
    requires t.Valid(c) && PadTable(t, c, p).Ok?
    requires k < c && i < t.rows + 2 * p && j < t.cols + 2 * p
    ensures PadTable(t, c, p).value.mean[k][i][j] == t.mean[Clamp(i - p, 0, t.rows - 1)][Clamp(j - p, 0, t.cols - 1)][k]
    ensures PadTable(t, c, p).value.std[k][i][j] == t.std[Clamp(i - p, 0, t.rows - 1)][Clamp(j - p, 0, t.cols - 1)][k]
    ensures p <= i < t.rows + p && p <= j < t.cols + p ==>
      PadTable(t, c, p).value.mean[k][i][j] == t.mean[i - p][j - p][k] &&
      PadTable(t, c, p).value.std[k][i][j] == t.std[i - p][j - p][k]
  {
  }

  // ---------------------------------------------------------------------------
  // The inference window and the kernel
  // ---------------------------------------------------------------------------

  /** The slice plane[top:top+2p+1, left:left+2p+1] of one channel plane. */
  function WindowOf(plane: Grid<real>, top: nat, left: nat, p: nat): Grid<real> {
    Crop(PySlice(plane, top, top + 2 * p + 1), left, left + 2 * p + 1)
  }

  /** The slice [:, :, y:y+2p+1, x:x+2p+1] of the padded planes. */
  function Window(planes: seq<Grid<real>>, y: nat, x: nat, p: nat): (r: seq<Grid<real>>)
    ensures |r| == |planes|
    ensures forall k :: 0 <= k < |planes| ==> r[k] == WindowOf(planes[k], y, x, p)
  {
    seq(|planes|, k requires 0 <= k < |planes| => WindowOf(planes[k], y, x, p))
  }

  /**
   * The reference neighbourhood of one channel: the (2p+1) by (2p+1) cells
   * centred on (y, x), each position outside the grid replaced by the nearest
   * cell inside it.
   */
  function Neighbourhood(g: Grid<seq<real>>, h: nat, w: nat, k: nat, y: int, x: int, p: nat): (r: Grid<real>)
    requires IsShape(g, h, w) && h > 0 && w > 0
    requires forall i, j :: 0 <= i < h && 0 <= j < w ==> k < |g[i][j]|
    ensures IsShape(r, 2 * p + 1, 2 * p + 1)
  {
    seq(2 * p + 1, i requires 0 <= i < 2 * p + 1 =>
      seq(2 * p + 1, j requires 0 <= j < 2 * p + 1 =>
        g[Clamp(y - p + i, 0, h - 1)][Clamp(x - p + j, 0, w - 1)][k]))
  }

  /** The neighbourhood of an in-grid anchor has the anchor's own value at its centre. */
  lemma NeighbourhoodCentre(g: Grid<seq<real>>, h: nat, w: nat, k: nat, y: int, x: int, p: nat)
    requires IsShape(g, h, w) && 0 <= y < h && 0 <= x < w
    requires forall i, j :: 0 <= i < h && 0 <= j < w ==> k < |g[i][j]|
    ensures Neighbourhood(g, h, w, k, y, x, p)[p][p] == g[y][x][k]
  {
    assert Clamp(y - p + p, 0, h - 1) == y;
    assert Clamp(x - p + p, 0, w - 1) == x;
  }

  /**
   * For an anchor inside the grid the slice lies inside the padded tables, is
   * exactly (2p+1) by (2p+1) and is the neighbourhood centred on the anchor.
   */
  lemma WindowCentred(t: Tables, c: nat, p: nat, y: nat, x: nat)
    requires t.Valid(c) && PadTable(t, c, p).Ok?
    requires y < t.rows && x < t.cols
    ensures |Window(PadTable(t, c, p).value.mean, y, x, p)| == c
    ensures |Window(PadTable(t, c, p).value.std, y, x, p)| == c
    ensures forall k :: 0 <= k < c ==>
      Window(PadTable(t, c, p).value.mean, y, x, p)[k] == Neighbourhood(t.mean, t.rows, t.cols, k, y, x, p) &&
      Window(PadTable(t, c, p).value.std, y, x, p)[k] == Neighbourhood(t.std, t.rows, t.cols, k, y, x, p)
  {
    var pt := PadTable(t, c, p).value;
    forall k | 0 <= k < c
      ensures Window(pt.mean, y, x, p)[k] == Neighbourhood(t.mean, t.rows, t.cols, k, y, x, p)
      ensures Window(pt.std, y, x, p)[k] == Neighbourhood(t.std, t.rows, t.cols, k, y, x, p)
    {
      WindowPlane(t.mean, t.rows, t.cols, k, p, y, x);
      WindowPlane(t.std, t.rows, t.cols, k, p, y, x);
    }
  }

  lemma WindowPlane(g: Grid<seq<real>>, h: nat, w: nat, k: nat, p: nat, y: nat, x: nat)
    requires IsShape(g, h, w) && y < h && x < w
    requires forall i, j :: 0 <= i < h && 0 <= j < w ==> k < |g[i][j]|
    ensures WindowOf(PadChannel(g, h, w, k, p), y, x, p) == Neighbourhood(g, h, w, k, y, x, p)
  {
    var plane := PadChannel(g, h, w, k, p);
    var win := WindowOf(plane, y, x, p);
    var nb := Neighbourhood(g, h, w, k, y, x, p);
    WindowOfRows(plane, h + 2 * p, w + 2 * p, y, x, p);
    forall i | 0 <= i < 2 * p + 1 ensures win[i] == nb[i] {
      WindowRow(g, h, w, k, p, y, x, plane, win[i], nb[i], i);
    }
  }

  /** A window inside the plane has 2p+1 rows, each a slice of the plane row it starts at. */
  lemma WindowOfRows(plane: Grid<real>, h: nat, w: nat, y: nat, x: nat, p: nat)
    requires IsShape(plane, h, w) && y + 2 * p + 1 <= h
    ensures |WindowOf(plane, y, x, p)| == 2 * p + 1
    ensures forall i :: 0 <= i < 2 * p + 1 ==> WindowOf(plane, y, x, p)[i] == PySlice(plane[y + i], x, x + 2 * p + 1)
  {
    var rows := PySlice(plane, y, y + 2 * p + 1);
    assert rows == plane[y..y + 2 * p + 1];
  }

  lemma WindowRow(g: Grid<seq<real>>, h: nat, w: nat, k: nat, p: nat, y: nat, x: nat,
                  plane: Grid<real>, row: seq<real>, nbRow: seq<real>, i: nat)
    requires IsShape(g, h, w) && y < h && x < w && i < 2 * p + 1
    requires forall a, b :: 0 <= a < h && 0 <= b < w ==> k < |g[a][b]|
    requires plane == PadChannel(g, h, w, k, p)
    requires row == PySlice(plane[y + i], x, x + 2 * p + 1)
    requires nbRow == Neighbourhood(g, h, w, k, y, x, p)[i]
    ensures row == nbRow
  {
    var n := 2 * p + 1;
    assert row == plane[y + i][x..x + n];
    assert |nbRow| == n;
    forall j | 0 <= j < n ensures row[j] == nbRow[j] {
      assert row[j] == plane[y + i][x + j];
    }
  }

  /** Two sizes broadcast when they agree or one of them is 1. */
  predicate Broadcasts(a: nat, b: nat) {
    a == b || a == 1 || b == 1
  }

  /** The size of a broadcast dimension. */
  function BroadcastSize(a: nat, b: nat): nat {
    if a == 1 then b else a
  }

  /** Which index of a dimension of size a is read at position i of a broadcast dimension. */
  function BroadcastIndex(a: nat, i: nat): nat {
    if a == 1 then 0 else i
  }

  /** The sum of all cells of a grid. */
  function Total(g: Grid<real>): real {
    if g == [] then 0.0 else Sum(g[0]) + Total(g[1..])
  }

  /** Summing row by row is summing the flattened grid. */
  lemma {:induction false} TotalIsFlatSum(g: Grid<real>)
    ensures Total(g) == Sum(Flatten(g))
  {
    if g != [] {
      TotalIsFlatSum(g[1..]);
      SumAppend(g[0], Flatten(g[1..]));
    }
  }

  /** Cell (i, j) of the broadcast product of an n by n window and the kernel. */
  function ProductCell(win: Grid<real>, n: nat, k: Matrix, i: nat, j: nat): real
    requires IsShape(win, n, n) && k.Valid() && Broadcasts(n, k.rows) && Broadcasts(n, k.cols)
    requires i < BroadcastSize(n, k.rows) && j < BroadcastSize(n, k.cols)
  {
    k.cells[BroadcastIndex(k.rows, i)][BroadcastIndex(k.cols, j)] * win[BroadcastIndex(n, i)][BroadcastIndex(n, j)]
  }

  /**
   * multiply_kernel's product on one channel: the n by n window times the
   * kernel, elementwise with torch broadcasting.
   */
  function KernelProduct(win: Grid<real>, n: nat, k: Matrix): (r: Grid<real>)
    requires IsShape(win, n, n) && k.Valid() && Broadcasts(n, k.rows) && Broadcasts(n, k.cols)
    ensures IsShape(r, BroadcastSize(n, k.rows), BroadcastSize(n, k.cols))
  {
    var rows := BroadcastSize(n, k.rows);
    var cols := BroadcastSize(n, k.cols);
    seq(rows, i requires 0 <= i < rows => seq(cols, j requires 0 <= j < cols => ProductCell(win, n, k, i, j)))
  }

  /**
   * multiply_kernel over every channel: the product summed over both
   * dimensions. Shapes that do not broadcast are an error.
   */
  function MultiplyKernel(win: seq<Grid<real>>, n: nat, k: Matrix): (r: Result<seq<real>, Error>)
    requires k.Valid() && forall c :: 0 <= c < |win| ==> IsShape(win[c], n, n)
    ensures r.Err? <==> !(Broadcasts(n, k.rows) && Broadcasts(n, k.cols))
    ensures r.Err? ==> r.error == ShapeMismatch
    ensures r.Ok? ==> |r.value| == |win|
  {
    if !(Broadcasts(n, k.rows) && Broadcasts(n, k.cols)) then Err(ShapeMismatch)
    else Ok(seq(|win|, c requires 0 <= c < |win| => Total(KernelProduct(win[c], n, k))))
  }

  /** Each cell of a grid of the kernel's shape times the kernel cell at its position. */
  function Weights(k: Matrix, g: Grid<real>): (r: Grid<real>)
    requires k.Valid() && IsShape(g, k.rows, k.cols)
    ensures IsShape(r, k.rows, k.cols)
  {
    seq(k.rows, i requires 0 <= i < k.rows => seq(k.cols, j requires 0 <= j < k.cols => k.cells[i][j] * g[i][j]))
  }

  /** The reference kernel-weighted sum of a grid of the kernel's own shape. */
  function Weighted(k: Matrix, g: Grid<real>): real
    requires k.Valid() && IsShape(g, k.rows, k.cols)
  {
    Total(Weights(k, g))
  }

  /** A kernel of the window's own size weights each window cell by the kernel cell at its position. */
  lemma MultiplyKernelWellShaped(win: seq<Grid<real>>, n: nat, k: Matrix)
    requires k.Valid() && k.rows == n && k.cols == n
    requires forall c :: 0 <= c < |win| ==> IsShape(win[c], n, n)
    ensures MultiplyKernel(win, n, k).Ok?
    ensures forall c :: 0 <= c < |win| ==> MultiplyKernel(win, n, k).value[c] == Weighted(k, win[c])
  {
    forall c | 0 <= c < |win| ensures KernelProduct(win[c], n, k) == Weights(k, win[c]) {
      var a := KernelProduct(win[c], n, k);
      var b := Weights(k, win[c]);
      forall i | 0 <= i < n ensures a[i] == b[i] {
        assert |a[i]| == |b[i]| == n;
        forall j | 0 <= j < n ensures a[i][j] == b[i][j] {
          assert a[i][j] == ProductCell(win[c], n, k, i, j);
          assert BroadcastIndex(n, i) == i && BroadcastIndex(n, j) == j;
        }
      }
    }
  }

  lemma Distribute(a: real, x: real, y: real, s: real)
    requires s == x + y
    ensures a * s == a * x + a * y
  {
  }

  /** Every element of a row times a. */
  function ScaleRow(a: real, s: seq<real>): seq<real> {
    seq(|s|, j requires 0 <= j < |s| => a * s[j])
  }

  /** Every cell of a grid times a. */
  function ScaleGrid(a: real, g: Grid<real>): Grid<real> {
    seq(|g|, i requires 0 <= i < |g| => ScaleRow(a, g[i]))
  }

  lemma ScaleRowTail(a: real, s: seq<real>)
    requires s != []
    ensures ScaleRow(a, s)[0] == a * s[0]
    ensures ScaleRow(a, s)[1..] == ScaleRow(a, s[1..])
  {
    var r := ScaleRow(a, s);
    forall j | 0 <= j < |s| - 1 ensures r[1..][j] == ScaleRow(a, s[1..])[j] {
      assert r[1..][j] == r[j + 1] == a * s[j + 1];
    }
  }

  lemma {:induction false} SumScaled(s: seq<real>, a: real)
    ensures Sum(ScaleRow(a, s)) == a * Sum(s)
  {
    if s != [] {
      var r := ScaleRow(a, s);
      ScaleRowTail(a, s);
      SumScaled(s[1..], a);
      assert Sum(r) == r[0] + Sum(r[1..]);
      Distribute(a, s[0], Sum(s[1..]), Sum(s));
    }
  }

  /** Scaling every cell by a scales the grid's total by a. */
  lemma {:induction false} TotalScaled(g: Grid<real>, a: real)
    ensures Total(ScaleGrid(a, g)) == a * Total(g)
  {
    if g != [] {
      var r := ScaleGrid(a, g);
      assert r[0] == ScaleRow(a, g[0]);
      assert r[1..] == ScaleGrid(a, g[1..]);
      SumScaled(g[0], a);
      TotalScaled(g[1..], a);
      Distribute(a, Sum(g[0]), Total(g[1..]), Total(g));
    }
  }

  /**
   * A single-cell kernel broadcasts over any window: the result is the
   * kernel's one value times the sum of the window, with no error even when
   * the kernel size is not 2p+1.
   */
  lemma SingleCellKernelScalesWindow(win: seq<Grid<real>>, n: nat, k: Matrix)
    requires k.Valid() && k.rows == 1 && k.cols == 1
    requires forall c :: 0 <= c < |win| ==> IsShape(win[c], n, n)
    ensures MultiplyKernel(win, n, k).Ok?
    ensures forall c :: 0 <= c < |win| ==> MultiplyKernel(win, n, k).value[c] == k.cells[0][0] * Total(win[c])
  {
    forall c | 0 <= c < |win| ensures Total(KernelProduct(win[c], n, k)) == k.cells[0][0] * Total(win[c]) {
      SingleCellProduct(win[c], n, k);
      TotalScaled(win[c], k.cells[0][0]);
    }
  }

  lemma SingleCellProduct(g: Grid<real>, n: nat, k: Matrix)
    requires k.Valid() && k.rows == 1 && k.cols == 1 && IsShape(g, n, n)
    ensures KernelProduct(g, n, k) == ScaleGrid(k.cells[0][0], g)
  {
    var a := k.cells[0][0];
    var prod := KernelProduct(g, n, k);
    var scaled := ScaleGrid(a, g);
    forall i | 0 <= i < n ensures prod[i] == scaled[i] {
      assert |prod[i]| == n;
      forall j | 0 <= j < n ensures prod[i][j] == scaled[i][j] {
        SingleCell(g, n, k, i, j);
        assert prod[i][j] == ProductCell(g, n, k, i, j);
        assert scaled[i][j] == ScaleRow(a, g[i])[j] == a * g[i][j];
      }
    }
  }

  lemma SingleCell(g: Grid<real>, n: nat, k: Matrix, i: nat, j: nat)
    requires k.Valid() && k.rows == 1 && k.cols == 1 && IsShape(g, n, n) && i < n && j < n
    ensures ProductCell(g, n, k, i, j) == k.cells[0][0] * g[i][j]
  {
    assert BroadcastIndex(n, i) == i && BroadcastIndex(n, j) == j;
    assert BroadcastIndex(k.rows, i) == 0 && BroadcastIndex(k.cols, j) == 0;
  }

  /**
   * A uniform kernel of the window's size, every weight 1/n², turns the
   * weighted sum into the unweighted mean of the window.
   */
  lemma UniformKernelIsMean(g: Grid<real>, n: nat, k: Matrix)
    requires n > 0 && k.Valid() && k.rows == n && k.cols == n && IsShape(g, n, n)
    requires forall i, j :: 0 <= i < n && 0 <= j < n ==> k.cells[i][j] == 1.0 / ((n * n) as real)
    ensures |Flatten(g)| == n * n
    ensures Weighted(k, g) == Mean(Flatten(g))
  {
    FlattenLength(g, n, n);
    UniformStep(g, n, k, 1.0 / ((n * n) as real));
  }

  lemma UniformStep(g: Grid<real>, n: nat, k: Matrix, a: real)
    requires n > 0 && k.Valid() && k.rows == n && k.cols == n && IsShape(g, n, n)
    requires forall i, j :: 0 <= i < n && 0 <= j < n ==> k.cells[i][j] == a
    requires a == 1.0 / (|Flatten(g)| as real) && |Flatten(g)| > 0
    ensures Weighted(k, g) == Mean(Flatten(g))
  {
    WeightedUniform(g, n, k, a);
    TotalIsFlatSum(g);
    ScaleEqual(a, Total(g), Sum(Flatten(g)));
    ScaledIsMean(a, Flatten(g), Weighted(k, g));
  }

  /** A kernel whose every weight is a scales the grid's total by a. */
  lemma WeightedUniform(g: Grid<real>, n: nat, k: Matrix, a: real)
    requires k.Valid() && k.rows == n && k.cols == n && IsShape(g, n, n)
    requires forall i, j :: 0 <= i < n && 0 <= j < n ==> k.cells[i][j] == a
    ensures Weighted(k, g) == a * Total(g)
  {
    UniformWeights(g, n, k, a);
    TotalScaled(g, a);
  }

  lemma ScaleEqual(a: real, x: real, y: real)
    requires x == y
    ensures a * x == a * y
  {
  }

  lemma UniformWeights(g: Grid<real>, n: nat, k: Matrix, a: real)
    requires k.Valid() && k.rows == n && k.cols == n && IsShape(g, n, n)
    requires forall i, j :: 0 <= i < n && 0 <= j < n ==> k.cells[i][j] == a
    ensures Weights(k, g) == ScaleGrid(a, g)
  {
    var w := Weights(k, g);
    var scaled := ScaleGrid(a, g);
    forall i | 0 <= i < n ensures w[i] == scaled[i] {
      forall j | 0 <= j < n ensures w[i][j] == scaled[i][j] {
      }
    }
  }

  lemma ScaledIsMean(a: real, cells: seq<real>, t: real)
    requires |cells| > 0 && a == 1.0 / (|cells| as real) && t == a * Sum(cells)
    ensures t == Mean(cells)
  {
  }

  lemma {:induction false} FlattenLength(g: Grid<real>, h: nat, w: nat)
    requires IsShape(g, h, w)
    ensures |Flatten(g)| == h * w
  {
    if h > 0 {
      FlattenLength(g[1..], h - 1, w);
      assert h * w == w + (h - 1) * w;
    }
  }

  // ---------------------------------------------------------------------------
  // Forward
  // ---------------------------------------------------------------------------

  /** The collecting branch can run: its anchors match the batch. */
  predicate CollectAnchors(batch: seq<SampleStats>, ys: seq<int>, xs: seq<int>) {
    |ys| == |batch| && |xs| == |batch|
  }

  /**
   * forward, with anchors given as sequences (a scalar anchor is a
   * one-element sequence) and the tensor numerics abstracted into the
   * statistics of each sample.
   */
  function Forward(l: Layer, training: bool, batch: seq<SampleStats>,
                   ys: Option<seq<int>>, xs: Option<seq<int>>): (r: Result<Step, Error>)
    requires l.Valid() && (Dispatch(l, training) != Plain ==> HasChannels(batch, l.numFeatures))
    // training or the override: plain normalisation without the affine step
    ensures Dispatch(l, training) == Plain ==> r == Ok(Step(l, PerSample(false)))
    ensures Dispatch(l, training) != Plain && (ys.None? || xs.None?) ==> r == Err(MissingAnchor)
    ensures Dispatch(l, training) == Kernelized && ys.Some? && xs.Some? && |batch| != 1 ==> r == Err(BatchSize)
    // collecting with both anchors succeeds exactly when the tables exist and there is one in-grid anchor pair per sample
    ensures Dispatch(l, training) == Collect && ys.Some? && xs.Some? ==>
      (r.Ok? <==> l.tables.Some? && CollectAnchors(batch, ys.value, xs.value) &&
                  AnchorsIn(l.tables.value.rows, l.tables.value.cols, ys.value, xs.value, |batch|))
    // inference with both anchors succeeds exactly for one sample, one in-grid anchor, an existing
    // snapshot and a kernel that broadcasts with the (2p+1)-wide window
    ensures Dispatch(l, training) == Kernelized && ys.Some? && xs.Some? ==>
      (r.Ok? <==> |batch| == 1 && |ys.value| == 1 && |xs.value| == 1 && l.padded.Some? &&
                  InGrid(l.padded.value.rows, l.padded.value.cols, (ys.value[0], xs.value[0])) &&
                  Broadcasts(2 * l.padding + 1, l.kernel.rows) && Broadcasts(2 * l.padding + 1, l.kernel.cols))
    // collecting: per-sample statistics with the affine step; only the tables change
    ensures r.Ok? && Dispatch(l, training) == Collect ==>
      r.value.applied == PerSample(true) && l.tables.Some? && CollectAnchors(batch, ys.value, xs.value) &&
      AnchorsIn(l.tables.value.rows, l.tables.value.cols, ys.value, xs.value, |batch|) &&
      r.value.layer == l.(tables := Some(Collection(l.tables.value, l.numFeatures, batch, ys.value, xs.value)))
    // inference: the kernel-weighted window of the padded snapshot; the layer is unchanged
    ensures r.Ok? && Dispatch(l, training) == Kernelized ==>
      r.value.layer == l && l.padded.Some? && |ys.value| == 1 && |xs.value| == 1 &&
      InGrid(l.padded.value.rows, l.padded.value.cols, (ys.value[0], xs.value[0])) && r.value.applied.Pooled?
    ensures r.Ok? ==> r.value.layer.Valid() && r.value.layer.padded == l.padded
  {
    match Dispatch(l, training)
    case Plain => Ok(Step(l, PerSample(false)))
    case Collect =>
      if ys.None? || xs.None? then Err(MissingAnchor)
      else if l.tables.None? then Err(NotInitialized)
      else if !CollectAnchors(batch, ys.value, xs.value) then Err(AnchorShape)
      else
        var t := l.tables.value;
        if !AnchorsIn(t.rows, t.cols, ys.value, xs.value, |batch|) then Err(AnchorOutOfRange)
        else Ok(Step(l.(tables := Some(Collection(t, l.numFeatures, batch, ys.value, xs.value))), PerSample(true)))
    case Kernelized =>
      if ys.None? || xs.None? then Err(MissingAnchor)
      else if |batch| != 1 then Err(BatchSize)
      else if |ys.value| != 1 || |xs.value| != 1 then Err(AnchorShape)
      else if l.padded.None? then Err(NotInitialized)
      else
        var pt := l.padded.value;
        var y := ys.value[0];
        var x := xs.value[0];
        if !InGrid(pt.rows, pt.cols, (y, x)) then Err(AnchorOutOfRange)
        else
          var a := Infer(pt, l.numFeatures, l.padding, l.kernel, y, x);
          if a.Err? then Err(a.error) else Ok(Step(l, a.value))
  }

  /**
   * A collecting forward whose anchors name one in-grid cell per sample
   * succeeds, writes the batch into the tables and applies per-sample
   * statistics with the affine step.
   */
  lemma CollectSucceeds(l: Layer, batch: seq<SampleStats>, ys: seq<int>, xs: seq<int>)
    requires l.Valid() && HasChannels(batch, l.numFeatures) && !l.normal && l.collecting && l.tables.Some?
    requires CollectAnchors(batch, ys, xs) && AnchorsIn(l.tables.value.rows, l.tables.value.cols, ys, xs, |batch|)
    ensures Forward(l, false, batch, Some(ys), Some(xs)) ==
      Ok(Step(l.(tables := Some(Collection(l.tables.value, l.numFeatures, batch, ys, xs))), PerSample(true)))
  {
  }

  /**
   * The inference branch for an anchor inside the grid: the windows of both
   * padded tables, each multiplied into the kernel.
   */
  function Infer(pt: Padded, c: nat, p: nat, kernel: Matrix, y: int, x: int): (r: Result<Applied, Error>)
    requires pt.Valid(c, p) && kernel.Valid() && InGrid(pt.rows, pt.cols, (y, x))
    ensures r.Err? <==> !(Broadcasts(2 * p + 1, kernel.rows) && Broadcasts(2 * p + 1, kernel.cols))
    ensures r.Err? ==> r.error == ShapeMismatch
    ensures r.Ok? ==> r.value.Pooled? && |r.value.mean| == c && |r.value.std| == c
  {
    var n := 2 * p + 1;
    var wm := Window(pt.mean, y, x, p);
    var ws := Window(pt.std, y, x, p);
    WindowShape(pt.mean, pt.rows, pt.cols, y, x, p);
    WindowShape(pt.std, pt.rows, pt.cols, y, x, p);
    var m := MultiplyKernel(wm, n, kernel);
    var s := MultiplyKernel(ws, n, kernel);
    if m.Err? || s.Err? then Err(ShapeMismatch)
    else Ok(Pooled(m.value, s.value))
  }

  /** Inside the padded planes, the window of an in-grid anchor is (2p+1) by (2p+1) in every channel. */
  lemma WindowShape(planes: seq<Grid<real>>, h: nat, w: nat, y: int, x: int, p: nat)
    requires forall c :: 0 <= c < |planes| ==> IsShape(planes[c], h + 2 * p, w + 2 * p)
    requires 0 <= y < h && 0 <= x < w
    ensures forall c :: 0 <= c < |Window(planes, y, x, p)| ==> IsShape(Window(planes, y, x, p)[c], 2 * p + 1, 2 * p + 1)
    ensures |Window(planes, y, x, p)| == |planes|
  {
    var win := Window(planes, y, x, p);
    forall c | 0 <= c < |planes| ensures IsShape(win[c], 2 * p + 1, 2 * p + 1) {
      var rows := PySlice(planes[c], y, y + 2 * p + 1);
      assert rows == planes[c][y..y + 2 * p + 1];
    }
  }

  /**
   * Inference from a snapshot of tables t: once kernelized inference has
   * padded tables t, inference at an in-grid anchor with a kernel of size 2p+1
   * applies, per channel, the kernel-weighted sum of the neighbourhood of t
   * centred on the anchor.
   */
  lemma InferenceReadsNeighbourhood(l: Layer, t: Tables, batch: seq<SampleStats>, y: int, x: int)
    requires l.Valid() && HasChannels(batch, l.numFeatures) && |batch| == 1
    requires !l.normal && !l.collecting
    requires l.padded.Some? && t.Valid(l.numFeatures) && PadTable(t, l.numFeatures, l.padding) == Ok(l.padded.value)
    requires l.kernel.rows == 2 * l.padding + 1 && l.kernel.cols == 2 * l.padding + 1
    requires 0 <= y < t.rows && 0 <= x < t.cols
    ensures Forward(l, false, batch, Some([y]), Some([x])).Ok?
    ensures Forward(l, false, batch, Some([y]), Some([x])).value.applied ==
      Pooled(seq(l.numFeatures, k requires 0 <= k < l.numFeatures =>
               Weighted(l.kernel, Neighbourhood(t.mean, t.rows, t.cols, k, y, x, l.padding))),
             seq(l.numFeatures, k requires 0 <= k < l.numFeatures =>
               Weighted(l.kernel, Neighbourhood(t.std, t.rows, t.cols, k, y, x, l.padding))))
  {
    var p := l.padding;
    var pt := l.padded.value;
    InferenceStep(l, batch, y, x);
    InferNeighbourhood(t, l.numFeatures, p, l.kernel, y, x);
  }

  /**
   * The collect-then-infer round trip through the host network: initialise,
   * collect one batch at in-grid anchors, snapshot, then normalise one tile at
   * an in-grid anchor with a kernel of the window's size. Every step succeeds,
   * and inference applies, per channel, the kernel-weighted neighbourhood of
   * the collected tables centred on the anchor.
   */
  lemma CollectThenInfer(l: Layer, h: nat, w: nat, batch: seq<SampleStats>, ys: seq<int>, xs: seq<int>,
                         tile: SampleStats, y: int, x: int)
    requires l.Valid() && l.numFeatures > 0 && HasChannels(batch, l.numFeatures) && HasChannels([tile], l.numFeatures)
    requires CollectAnchors(batch, ys, xs) && AnchorsIn(h, w, ys, xs, |batch|) && 0 <= y < h && 0 <= x < w
    requires l.kernel.rows == 2 * l.padding + 1 && l.kernel.cols == 2 * l.padding + 1
    ensures InitKernelized([Norm(l)], h, w)[0].layer.Valid()
    ensures Forward(InitKernelized([Norm(l)], h, w)[0].layer, false, batch, Some(ys), Some(xs)).Ok?
    ensures var collected := Forward(InitKernelized([Norm(l)], h, w)[0].layer, false, batch, Some(ys), Some(xs)).value.layer;
      collected.Valid() && UseKernelized([Norm(collected)]).Ok?
    ensures var collected := Forward(InitKernelized([Norm(l)], h, w)[0].layer, false, batch, Some(ys), Some(xs)).value.layer;
      var inferring := UseKernelized([Norm(collected)]).value[0].layer;
      var t := Collection(InitCollection(l.numFeatures, h, w), l.numFeatures, batch, ys, xs);
      inferring.Valid() && Forward(inferring, false, [tile], Some([y]), Some([x])) ==
        Ok(Step(inferring, Pooled(
          seq(l.numFeatures, k requires 0 <= k < l.numFeatures =>
            Weighted(l.kernel, Neighbourhood(t.mean, h, w, k, y, x, l.padding))),
          seq(l.numFeatures, k requires 0 <= k < l.numFeatures =>
            Weighted(l.kernel, Neighbourhood(t.std, h, w, k, y, x, l.padding))))))
  {
    var c := l.numFeatures;
    var collecting := InitKernelized([Norm(l)], h, w)[0].layer;
    var t0 := InitCollection(c, h, w);
    assert collecting == l.(collecting := true, normal := false, tables := Some(t0));
    CollectSucceeds(collecting, batch, ys, xs);
    var t := Collection(t0, c, batch, ys, xs);
    var collected := collecting.(tables := Some(t));
    assert Forward(collecting, false, batch, Some(ys), Some(xs)).value.layer == collected;
    var pt := PadTable(t, c, l.padding);
    assert pt.Ok?;
    var inferring := collected.(collecting := false, normal := false, padded := Some(pt.value));
    assert UseLayer(collected) == Ok(inferring);
    UseKernelizedLayers([Norm(collected)]);
    assert UseKernelized([Norm(collected)]).value[0] == Norm(inferring);
    InferenceReadsNeighbourhood(inferring, t, [tile], y, x);
  }

  /** Kernelized inference at an in-grid anchor is the inference branch, and leaves the layer as it was. */
  lemma InferenceStep(l: Layer, batch: seq<SampleStats>, y: int, x: int)
    requires l.Valid() && HasChannels(batch, l.numFeatures) && |batch| == 1
    requires !l.normal && !l.collecting && l.padded.Some?
    requires 0 <= y < l.padded.value.rows && 0 <= x < l.padded.value.cols
    requires Infer(l.padded.value, l.numFeatures, l.padding, l.kernel, y, x).Ok?
    ensures Forward(l, false, batch, Some([y]), Some([x])) ==
      Ok(Step(l, Infer(l.padded.value, l.numFeatures, l.padding, l.kernel, y, x).value))
  {
    assert Dispatch(l, false) == Kernelized;
  }

  /** With a kernel of the window's size the inference branch reads the neighbourhoods of the tables. */
  lemma InferNeighbourhood(t: Tables, c: nat, p: nat, kernel: Matrix, y: int, x: int)
    requires t.Valid(c) && PadTable(t, c, p).Ok? && kernel.Valid()
    requires kernel.rows == 2 * p + 1 && kernel.cols == 2 * p + 1
    requires 0 <= y < t.rows && 0 <= x < t.cols
    ensures Infer(PadTable(t, c, p).value, c, p, kernel, y, x) ==
      Ok(Pooled(seq(c, k requires 0 <= k < c => Weighted(kernel, Neighbourhood(t.mean, t.rows, t.cols, k, y, x, p))),
                seq(c, k requires 0 <= k < c => Weighted(kernel, Neighbourhood(t.std, t.rows, t.cols, k, y, x, p)))))
  {
    var pt := PadTable(t, c, p).value;
    KernelOverPlanes(t.mean, t.rows, t.cols, c, pt.mean, p, kernel, y, x);
    KernelOverPlanes(t.std, t.rows, t.cols, c, pt.std, p, kernel, y, x);
  }

  /** The kernel over the windows of the padded planes of a table is the kernel over its neighbourhoods. */
  lemma KernelOverPlanes(g: Grid<seq<real>>, h: nat, w: nat, c: nat, planes: seq<Grid<real>>, p: nat,
                         kernel: Matrix, y: int, x: int)
    requires IsShape(g, h, w) && 0 <= y < h && 0 <= x < w
    requires forall i, j :: 0 <= i < h && 0 <= j < w ==> |g[i][j]| == c
    requires |planes| == c && forall k :: 0 <= k < c ==> planes[k] == PadChannel(g, h, w, k, p)
    requires kernel.Valid() && kernel.rows == 2 * p + 1 && kernel.cols == 2 * p + 1
    ensures forall k :: 0 <= k < c ==> IsShape(Window(planes, y, x, p)[k], 2 * p + 1, 2 * p + 1)
    ensures MultiplyKernel(Window(planes, y, x, p), 2 * p + 1, kernel) ==
      Ok(seq(c, k requires 0 <= k < c => Weighted(kernel, Neighbourhood(g, h, w, k, y, x, p))))
  {
    var n := 2 * p + 1;
    var win := Window(planes, y, x, p);
    forall k | 0 <= k < c ensures win[k] == Neighbourhood(g, h, w, k, y, x, p) {
      WindowPlane(g, h, w, k, p, y, x);
    }
    MultiplyKernelWellShaped(win, n, kernel);
    var r := MultiplyKernel(win, n, kernel).value;
    assert r == seq(c, k requires 0 <= k < c => Weighted(kernel, Neighbourhood(g, h, w, k, y, x, p)));
  }

  // ---------------------------------------------------------------------------
  // Mode transitions over a host network
  // ---------------------------------------------------------------------------

  /** Every normalisation layer of the network is valid. */
  predicate AllValid(net: seq<Module<Layer>>) {
    forall i :: 0 <= i < |net| && net[i].Norm? ==> net[i].layer.Valid()
  }

  /** The constructor's configuration, which no mode switch touches. */
  predicate SameConfig(a: Layer, b: Layer) {
    a.numFeatures == b.numFeatures && a.kernelSize == b.kernelSize && a.padding == b.padding && a.kernel == b.kernel
  }

  /** not_use_kernelized_instance_norm: every layer falls back to plain normalisation. */
  function NotUseKernelized(net: seq<Module<Layer>>): (net': seq<Module<Layer>>)
    ensures |net'| == |net|
    ensures forall i :: 0 <= i < |net| && net[i].Other? ==> net'[i] == net[i]
    ensures forall i :: 0 <= i < |net| && net[i].Norm? ==>
      net'[i].Norm? && !net'[i].layer.collecting && Dispatch(net'[i].layer, false) == Plain &&
      net'[i].layer.tables == net[i].layer.tables && net'[i].layer.padded == net[i].layer.padded &&
      SameConfig(net'[i].layer, net[i].layer)
  {
    ForEachNorm(net, (l: Layer) => l.(collecting := false, normal := true))
  }

  /**
   * init_kernelized_instance_norm: every layer starts collecting into fresh
   * zero tables; the padded snapshot is left as it was.
   */
  function InitKernelized(net: seq<Module<Layer>>, h: nat, w: nat): (net': seq<Module<Layer>>)
    ensures |net'| == |net|
    ensures forall i :: 0 <= i < |net| && net[i].Other? ==> net'[i] == net[i]
    ensures forall i :: 0 <= i < |net| && net[i].Norm? ==>
      net'[i].Norm? && Dispatch(net'[i].layer, false) == Collect && !net'[i].layer.normal &&
      net'[i].layer.tables == Some(InitCollection(net[i].layer.numFeatures, h, w)) &&
      net'[i].layer.padded == net[i].layer.padded && SameConfig(net'[i].layer, net[i].layer)
  {
    ForEachNorm(net, (l: Layer) =>
      l.(collecting := true, normal := false, tables := Some(InitCollection(l.numFeatures, h, w))))
  }

  /** One layer's part of use_kernelized_instance_norm: snapshot, then clear both flags. */
  function UseLayer(l: Layer): (r: Result<Layer, Error>)
    requires l.Valid()
    ensures r.Err? <==> l.tables.None? || PadTable(l.tables.value, l.numFeatures, l.padding).Err?
    ensures r.Ok? ==> r.value.Valid() && Dispatch(r.value, false) == Kernelized
    ensures r.Ok? ==> r.value == l.(collecting := false, normal := false,
                                    padded := Some(PadTable(l.tables.value, l.numFeatures, l.padding).value))
  {
    if l.tables.None? then Err(NotInitialized)
    else
      var pt := PadTable(l.tables.value, l.numFeatures, l.padding);
      if pt.Err? then Err(pt.error)
      else Ok(l.(collecting := false, normal := false, padded := Some(pt.value)))
  }

  /**
   * use_kernelized_instance_norm: every layer snapshots its tables into the
   * padded tables and switches to kernelized inference. A layer that cannot
   * be padded stops the whole operation.
   */
  function UseKernelized(net: seq<Module<Layer>>): (r: Result<seq<Module<Layer>>, Error>)
    requires AllValid(net)
    ensures r.Ok? <==> forall i :: 0 <= i < |net| && net[i].Norm? ==> UseLayer(net[i].layer).Ok?
    ensures r.Ok? ==> |r.value| == |net|
  {
    if net == [] then Ok([])
    else
      var rest := UseKernelized(net[1..]);
      assert forall i :: 1 <= i < |net| ==> net[1..][i - 1] == net[i];
      match net[0]
      case Other(_) =>
        if rest.Err? then rest else Ok([net[0]] + rest.value)
      case Norm(l) =>
        var u := UseLayer(l);
        if u.Err? then Err(u.error)
        else if rest.Err? then rest
        else Ok([Norm(u.value)] + rest.value)
  }

  /** On success every layer is snapshotted as UseLayer does it, and everything else is left alone. */
  lemma {:induction false} UseKernelizedLayers(net: seq<Module<Layer>>)
    requires AllValid(net) && UseKernelized(net).Ok?
    ensures forall i :: 0 <= i < |net| && net[i].Other? ==> UseKernelized(net).value[i] == net[i]
    ensures forall i :: 0 <= i < |net| && net[i].Norm? ==> UseKernelized(net).value[i] == Norm(UseLayer(net[i].layer).value)
  {
    if net != [] {
      var r := UseKernelized(net).value;
      var rest := UseKernelized(net[1..]);
      assert rest.Ok?;
      UseKernelizedLayers(net[1..]);
      assert r[1..] == rest.value;
      forall i | 1 <= i < |net| ensures r[i] == rest.value[i - 1] && net[1..][i - 1] == net[i] {
      }
    }
  }

  lemma TransitionsIdempotent(net: seq<Module<Layer>>, h: nat, w: nat)
    requires AllValid(net)
    ensures NotUseKernelized(NotUseKernelized(net)) == NotUseKernelized(net)
    ensures InitKernelized(InitKernelized(net, h, w), h, w) == InitKernelized(net, h, w)
    ensures UseKernelized(net).Ok? ==> AllValid(UseKernelized(net).value)
    ensures UseKernelized(net).Ok? ==> UseKernelized(UseKernelized(net).value) == UseKernelized(net)
  {
    if UseKernelized(net).Ok? {
      var once := UseKernelized(net).value;
      UseKernelizedLayers(net);
      forall i | 0 <= i < |once| && once[i].Norm?
        ensures once[i].layer.Valid() && UseLayer(once[i].layer) == Ok(once[i].layer)
      {
        UseLayerIdempotent(net[i].layer);
      }
      assert AllValid(once);
      var twice := UseKernelized(once);
      assert twice.Ok?;
      UseKernelizedLayers(once);
      assert twice.value == once;
    }
  }

  lemma UseLayerIdempotent(l: Layer)
    requires l.Valid() && UseLayer(l).Ok?
    ensures UseLayer(UseLayer(l).value) == UseLayer(l)
  {
  }

  /**
   * The padded snapshot is only refreshed by use_kernelized_instance_norm:
   * re-initialising and collecting afterwards leave it as the tables were
   * when it was taken.
   */
  lemma SnapshotIsStale(l: Layer, h: nat, w: nat, batch: seq<SampleStats>, ys: seq<int>, xs: seq<int>)
    requires l.Valid() && UseLayer(l).Ok? && HasChannels(batch, l.numFeatures)
    ensures InitKernelized([Norm(UseLayer(l).value)], h, w)[0].layer.Valid()
    ensures var collecting := InitKernelized([Norm(UseLayer(l).value)], h, w)[0].layer;
      var r := Forward(collecting, false, batch, Some(ys), Some(xs));
      r.Ok? ==> r.value.layer.padded == Some(PadTable(l.tables.value, l.numFeatures, l.padding).value)
  {
  }
}

=== FILE: modes.dfy ===
/** The mode dispatch both layer variants share. */
module Modes {

  /** The three behaviours of forward. */
  datatype Behaviour = Plain | Collect | Kernelized

  /**
   * Which behaviour forward selects from the host's training flag and the
   * layer's two mode flags: training or the override wins, then collection.
   */
  function Select(training: bool, normal: bool, collecting: bool): Behaviour {
    if training || normal then Plain
    else if collecting then Collect
    else Kernelized
  }

  /** A module of the host network: a normalisation layer or anything else. */
  datatype Module<L> = Norm(layer: L) | Other(name: string)

  /**
   * The named_modules loop of the mode switches: f is applied to every
   * normalisation layer and every other module is left as it is.
   */
  function ForEachNorm<L(==)>(net: seq<Module<L>>, f: L -> L): (net': seq<Module<L>>)
    ensures |net'| == |net|
    ensures forall i :: 0 <= i < |net| && net[i].Other? ==> net'[i] == net[i]
    ensures forall i :: 0 <= i < |net| && net[i].Norm? ==> net'[i] == Norm(f(net[i].layer))
  {
    seq(|net|, i requires 0 <= i < |net| => if net[i].Norm? then Norm(f(net[i].layer)) else net[i])
  }
}

=== FILE: samples.dfy ===
/** The per-sample statistics the layer receives from its (abstracted) tensor numerics. */
module Samples {

  /**
   * Mean and standard deviation of one sample's feature map, one entry per
   * channel, as computed over the spatial positions. The values are taken as
   * given exact reals.
   */
  datatype SampleStats = SampleStats(mean: seq<real>, std: seq<real>)

  /** Every sample carries the same number c of channels in both vectors. */
  predicate HasChannels(batch: seq<SampleStats>, c: nat) {
    forall b :: 0 <= b < |batch| ==> |batch[b].mean| == c && |batch[b].std| == c
  }

  /** Every sample has at least one channel, so its channel-0 statistics exist. */
  predicate HasChannel0(batch: seq<SampleStats>) {
    forall b :: 0 <= b < |batch| ==> |batch[b].mean| > 0 && |batch[b].std| > 0
  }
}

=== FILE: wrappers.dfy ===
/** Option and Result, shared by both layer models. */
module Wrappers {

  /** An optional value: the layer's attributes that exist only after an initialising call. */
  datatype Option<+T> = None | Some(value: T)

  /** The outcome of an operation that may stop with an assertion or indexing failure. */
  datatype Result<+T, +E> = Ok(value: T) | Err(error: E)
}
